=== FILE: README.md ===
# Mume music player core, modelled in Dafny

This project models the state-keeping core of the Mume React Native music player:

- the playback queue (`src/store/queueStore.ts`): songs in play order, the order they had before any shuffle, and the index of the current song;
- the player controller (`src/store/playerStore.ts`): the one sound object it holds at a time, the play/pause/seek/stop controls, the repeat and shuffle modes, and the policy that picks the next song at the end of a track;
- the pure helpers of the API client (`src/services/api.ts`): stream and artwork URL choice by quality tag, `m:ss` duration rendering, and the artist display name;
- the small persisted list stores: recent searches, recently played songs, favourites, playlists, and the bookkeeping half of downloads.

Each store whose fields change in place is a `class`. Its methods overwrite those fields as the store's `set` does. Each action is also given as a transition function on a value of the store's state. Every method's `ensures` gives its new state as that function of the old state. The shuffle is the exception: its order depends on the random draws, so `Queue.QueueStore.ShuffleQueue` and `Player.PlayerStore.ToggleShuffle` state the relation `IsShuffleOf` between the old and the new state instead. The lemmas state what the actions promise: invariants kept, round trips, idempotence, and the selection following the current song.

Files and modules:

| file | module | contents |
|---|---|---|
| `wrappers.dfy` | `Wrappers` | `Option` |
| `seqs.dfy` | `Seqs` | JavaScript `splice` (with its start clamping), `filter`, `slice(0, n)`, and subsequences |
| `types.dfy` | `Types` | the song record, and lookups and uniqueness by song id |
| `text.dfy` | `Text` | ASCII `toLowerCase` and `trim`, and decimal `toString`, `padStart` and `parseInt` |
| `api.dfy` | `Api` | `getBestDownloadUrl`, `getBestImageUrl`, `formatDuration`, `getArtistNames` |
| `queue.dfy` | `Queue` | `QueueState`, its transitions, and `class QueueStore` |
| `player.dfy` | `Player` | `Session`, the advance policy, and `class PlayerStore` over a `QueueStore` |
| `search_store.dfy` | `Search` | `class SearchStore` |
| `recently_played.dfy` | `Recent` | `class RecentlyPlayedStore` |
| `favorites.dfy` | `Favorites` | `class FavoritesStore` |
| `playlists.dfy` | `Playlists` | `class PlaylistStore` |
| `downloads.dfy` | `Downloads` | `class DownloadStore` |

Behaviour of the code worth knowing:

- `setQueue` takes its start index as given, without clamping it to the queue (`src/store/queueStore.ts:108-114`).
- `playSong(song, true)` selects the queue length read before the add, minus one, not the song's own position (`src/store/playerStore.ts:115-118`). See `Player.PlaySongSelectsPreviousLast` and `Player.PlaySongQueuedSelectsBeforeEnd`.
- The index is not -1 exactly when the queue is empty. Adding to an empty queue leaves the index at -1 (`src/store/queueStore.ts:36-50`). Restoring an empty original order selects 0 (`src/store/queueStore.ts:176-180`, `Queue.RestoreEmptySelectsZero`). The invariant the code does keep is `Queue.Bounded`.
- At the end of the queue under repeat-off, `playNext` changes nothing in the store and does not stop playback itself (`src/store/playerStore.ts:207-216`, `Player.RepeatOffStopsAtEnd`).

Outside effects are parameters of the model:

- the outcome of each audio call (`createOk`, `unloadOk`, `ok`);
- the outcome of the file transfer (`Downloads.Transfer`);
- the random draws of the shuffle (`rolls`);
- the clock (`now`).

## Model

| member | source | states |
|---|---|---|
| Seqs.SpliceStart | src/store/queueStore.ts:130 | the position `splice` acts at: a negative start counts from the end, and both ends are clamped into `[0, len]` |
| Seqs.RemoveAt | src/store/queueStore.ts:74 | `splice(i, 1)` drops exactly element `i`: shorter by one, with earlier elements kept and later ones shifted down |
| Seqs.RemoveAtMultiset | src/store/queueStore.ts:74 | removing position `i` removes one occurrence of `s[i]` and nothing else |
| Seqs.InsertAt | src/store/queueStore.ts:130 | `splice(start, 0, x)` puts `x` at the clamped position, with the elements before it kept and those after it shifted up |
| Seqs.InsertAtMultiset | src/store/queueStore.ts:130 | inserting adds exactly one occurrence of `x` |
| Seqs.RemoveInserted | src/store/queueStore.ts:129-130 | taking out what was just inserted gives back the array |
| Seqs.Take | src/store/searchStore.ts:46 | `slice(0, n)` is a prefix of length at most `n`, and the whole array when it is short enough |
| Seqs.Filter | src/store/searchStore.ts:41-43 | `filter` keeps exactly the elements the predicate accepts, each as often as before, in their original order |
| Seqs.FilterAllKept | src/store/favoritesStore.ts:29 | a filter that rejects nothing returns the array unchanged |
| Seqs.FilterConcat | src/store/favoritesStore.ts:29 | filtering distributes over concatenation |
| Seqs.FilterDropsAppended | src/store/downloadStore.ts:130 | filtering out one appended element that alone fails the test gives back the list before the append |
| Seqs.SubsequencePrefix | src/store/searchStore.ts:46 | a prefix of an order-preserving selection is still one |
| Seqs.SubsequenceElements | src/store/recentlyPlayedStore.ts:23 | every element of an order-preserving selection occurs in the source |
| Types.IndexOfId | src/store/queueStore.ts:40 | `findIndex` by id: the first position holding the id, or -1 exactly when no entry has it |
| Types.WithoutId | src/store/favoritesStore.ts:29 | `filter(s => s.id !== id)`: no entry with the id is left, the rest are kept in order with their counts |
| Types.WithoutAbsentId | src/store/favoritesStore.ts:29 | removing an id that is absent changes nothing |
| Types.UniqueIdsSubsequence | src/store/recentlyPlayedStore.ts:23 | deleting entries from a list with distinct ids leaves distinct ids |
| Types.PermutationKeepsIds | src/store/queueStore.ts:153-160 | two lists with the same songs in any order carry the same multiset of ids |
| Types.IdsRemoveAt | src/store/queueStore.ts:74 | removing a song removes its id at the same position |
| Types.IdsInsertAt | src/store/queueStore.ts:130 | inserting a song inserts its id at the same position |
| Types.IdsAppend | src/store/queueStore.ts:45-46 | appending songs adds their ids to the multiset of ids |
| Text.Lower | src/store/searchStore.ts:36 | ASCII `toLowerCase`: same length, with each letter A-Z mapped to a-z |
| Text.LowerIdempotent | src/store/searchStore.ts:42 | lower-casing twice is lower-casing once |
| Text.Trim | src/store/searchStore.ts:36 | `trim`: a slice of the input with no whitespace at either end, empty exactly when the input is all whitespace |
| Text.NatToString | src/services/api.ts:216 | `toString` of a natural number: digits only, no leading zero, and read back as the number |
| Text.IntToString | src/services/api.ts:216 | `toString` of an integer: the decimal digits of a non-negative number, and '-' before the digits of its magnitude otherwise |
| Text.PadStart2 | src/services/api.ts:216 | `padStart(2, '0')`: the input right-aligned in at least two characters, with zeros in front |
| Text.ParseInt | src/services/api.ts:210 | `parseInt(s, 10)`: `None` (`NaN`) exactly when no digit follows the leading whitespace and the optional sign |
| Text.ParseIntParts | src/services/api.ts:210 | `parseInt` of whitespace, an optional sign, a run of digits and a tail that does not continue them is the value of the digits, negated for '-' |
| Text.LeadingZeroIgnored | src/services/api.ts:210 | a leading zero does not change the value of a run of digits, so '007' reads 7 |
| Text.ParseIntSkipsText | src/services/api.ts:210 | `parseInt(" 42px")` is 42 |
| Text.ParseIntNegative | src/services/api.ts:210 | `parseInt("-7")` is -7 |
| Text.ParseIntOfNat | src/services/api.ts:210 | `parseInt` of a natural number's decimal form gives back the number |
| Api.UrlOf | src/services/api.ts:167 | `url || link || ''`: the url when non-empty, else the link, and empty exactly when both are |
| Api.FindQuality | src/services/api.ts:187 | `find` by quality tag: the first entry with the tag, or `None` exactly when no entry has it |
| Api.FindRanked | src/services/api.ts:193-198 | the first entry carrying the best-ranked tag present, or `None` exactly when no ranked tag occurs |
| Api.GetBestDownloadUrl | src/services/api.ts:175-203 | '' for no entries; the first preferred-tag entry's URL; else the ranked choice, or the last entry's; always '' or some entry's URL |
| Api.PickRanked | src/services/api.ts:154-172 | for a non-empty list, the first entry with the best-ranked tag present, or the last entry when no ranked tag occurs; always '' or some entry's URL |
| Api.GetBestImageUrl | src/services/api.ts:154-172 | the placeholder for no entries; else the ranked choice over 500x500/150x150/50x50, or the last entry's URL |
| Api.PreferredBeatsRanking | src/services/api.ts:187-190 | a present preferred tag wins over a better-ranked one, and the default preference is 320kbps |
| Api.JsRem | src/services/api.ts:214 | JavaScript `%`: `n == q * d + r` for a quotient truncated toward zero, with `r` taking the sign of the dividend and a magnitude below the divisor |
| Api.Clock | src/services/api.ts:213-216 | for a non-negative count, the decimal whole minutes, ':', and the remaining seconds padded to two digits; a negative count renders with a leading '-' |
| Api.FormatDuration | src/services/api.ts:206-217 | '0:00' for a falsy value or unparseable text; otherwise `minutes:seconds` of the number |
| Api.FormatDurationRoundTrip | src/services/api.ts:213-216 | for `n >= 0` seconds the text reads back as `(n / 60, n % 60)`, with the seconds as exactly two digits |
| Api.DurationTextAsNumber | src/services/api.ts:210 | a duration held as a digit string renders like the number |
| Api.FormatDurationExample | src/services/api.ts:206-217 | 125 renders '2:05' |
| Api.FormatDurationNegative | src/services/api.ts:206-217 | -5 renders '-1:-5': minutes round down and the seconds keep the sign |
| Api.Join | src/services/api.ts:226 | `join(sep)`: '' for no names, and otherwise as long as every name plus a separator between each pair |
| Api.ArtistNames | src/services/api.ts:226 | `map(a => a.name)`: one name per artist, position by position |
| Api.JoinPlacesName | src/services/api.ts:226 | in `join(sep)` each name sits, intact, at its offset |
| Api.JoinSeparates | src/services/api.ts:226 | in `join(sep)` every name after the first is preceded by the separator |
| Api.GetArtistNames | src/services/api.ts:220-230 | non-empty `primaryArtists` text wins; else the primary artists' names joined by ', '; else 'Unknown Artist' |
| Queue.Added | src/store/queueStore.ts:36-50 | a queued id is only selected, at its first position; otherwise the song is appended to both lists and the selection stays |
| Queue.Unqueued | src/store/queueStore.ts:57-59 | the input songs whose id is not queued, in input order and with their multiplicities |
| Queue.AddedAll | src/store/queueStore.ts:53-65 | both lists are extended by exactly the unqueued songs, and the selection does not move |
| Queue.IndexAfterRemoval | src/store/queueStore.ts:83-89 | from an index in `[-1, old length)` and a removed position in range, the new index lies in `[-1, new length)`; removing a later position keeps the index |
| Queue.Removed | src/store/queueStore.ts:68-96 | an out-of-range index changes nothing; otherwise that entry goes, the first same-id entry of the original order goes, and the index is remapped |
| Queue.IndexAfterMove | src/store/queueStore.ts:133-140 | the moved song's index becomes `to`; any other selection moves by at most one and stays non-negative |
| Queue.Reordered | src/store/queueStore.ts:122-143 | out of range changes nothing; otherwise the moved song lands at `to`, the rest keep their order, and the original order is untouched |
| Queue.Restored | src/store/queueStore.ts:171-182 | the queue becomes the original order; the selection follows the selected song's id, else 0 |
| Queue.NextSong | src/store/queueStore.ts:185-193 | the entry after the selection, present exactly when `-1 <= currentIndex < length - 1` |
| Queue.PreviousSong | src/store/queueStore.ts:196-204 | the entry before the selection, present exactly when `0 < currentIndex <= length` |
| Queue.PlacedNext | src/store/queueStore.ts:217-244 | a queued song moves after the selection (before it when it sat earlier) with the original order kept; a new one is inserted at `currentIndex + 1` and appended to the original order |
| Queue.FisherYates | src/store/queueStore.ts:156-159 | the swap pass keeps exactly the songs of the array |
| Queue.QueueStore.constructor | src/store/queueStore.ts:31-33 | empty lists with nothing selected |
| Queue.QueueStore.AddToQueue | src/store/queueStore.ts:36-50 | the store reaches `Added` of its old state |
| Queue.QueueStore.AddMultipleToQueue | src/store/queueStore.ts:53-65 | the store reaches `AddedAll` of its old state |
| Queue.QueueStore.RemoveFromQueue | src/store/queueStore.ts:68-96 | the store reaches `Removed` of its old state |
| Queue.QueueStore.ClearQueue | src/store/queueStore.ts:99-105 | empty lists with nothing selected |
| Queue.QueueStore.SetQueue | src/store/queueStore.ts:108-114 | both lists become the songs and the index is taken as given; ids are in step |
| Queue.QueueStore.SetCurrentIndex | src/store/queueStore.ts:117-119 | only the index changes |
| Queue.QueueStore.ReorderQueue | src/store/queueStore.ts:122-143 | the store reaches `Reordered` of its old state |
| Queue.QueueStore.ShuffleQueue | src/store/queueStore.ts:146-168 | a queue of at most one song is untouched; otherwise the selected song comes first, the same songs are kept, index 0 is selected, and the original order is untouched |
| Queue.QueueStore.RestoreOriginalQueue | src/store/queueStore.ts:171-182 | the store reaches `Restored` of its old state |
| Queue.QueueStore.PlayFromQueue | src/store/queueStore.ts:207-214 | out of range: `None` and no change; otherwise it selects and returns that entry |
| Queue.QueueStore.PlayNext | src/store/queueStore.ts:217-244 | the store reaches `PlacedNext` of its old state |
| Queue.AddKeepsIds | src/store/queueStore.ts:36-50 | adding keeps the queue's ids and the original order's ids the same multiset |
| Queue.AddAllKeepsIds | src/store/queueStore.ts:53-65 | adding many keeps the two id multisets equal |
| Queue.RemoveKeepsIds | src/store/queueStore.ts:68-96 | removing by index from the queue and by id from the original order keeps the two id multisets equal |
| Queue.ReorderKeepsIds | src/store/queueStore.ts:122-143 | a move keeps the two id multisets equal |
| Queue.PlaceNextKeepsIds | src/store/queueStore.ts:217-244 | play-next, moving or inserting, keeps the two id multisets equal |
| Queue.IsShuffleOf | src/store/queueStore.ts:146-168 | a shuffle result has the same songs with the same counts, the original order untouched, and the previously selected song first |
| Queue.ShuffleKeepsIds | src/store/queueStore.ts:146-168 | a shuffle keeps the two id multisets equal |
| Queue.RestoreAlignsIds | src/store/queueStore.ts:171-182 | after a restore the two id multisets are equal, whatever they were |
| Queue.ActionsKeepBounds | src/store/queueStore.ts:36-244 | add, add-many, remove, reorder and play-next keep the index in `[-1, length)`, and so does restoring a non-empty original order |
| Queue.ReorderKeepsCurrent | src/store/queueStore.ts:132-140 | any move keeps the selected song selected |
| Queue.ReorderExample | src/store/queueStore.ts:122-143 | `[A,B,C,D]` with C selected, after moving A to the end, is `[B,C,D,A]` with C at 1 selected |
| Queue.RemoveKeepsCurrent | src/store/queueStore.ts:85-90 | removing another song keeps the selected song selected |
| Queue.RemoveCurrentSelectsNext | src/store/queueStore.ts:85-90 | removing the selected song selects its successor, or the new last song when it was last |
| Queue.RestoreIdempotent | src/store/queueStore.ts:171-182 | restoring twice equals restoring once |
| Queue.ShuffleThenRestore | src/store/queueStore.ts:146-182 | with distinct ids, shuffle then restore gives back the exact state |
| Queue.RestoreEmptySelectsZero | src/store/queueStore.ts:176-180 | restoring an empty original order selects 0, outside the empty queue |
| Queue.PlayNextEarlierSongTakesSelection | src/store/queueStore.ts:226-230 | play-next of a song queued before the selection puts it at the selected index, so the selection names it |
| Queue.NextThenPrevious | src/store/queueStore.ts:185-204 | stepping to the next song and asking for the previous one gives back the song that was selected |
| Player.Played | src/store/playerStore.ts:71-125 | the song is current and not loading; it plays, with a fresh sound object, exactly when it has a stream and creation succeeds; otherwise no sound is held |
| Player.Released | src/store/playerStore.ts:268-278 | the held sound stops being loaded only when unloading succeeds |
| Player.SelectedAfterAdd | src/store/playerStore.ts:115-118 | the queue after `addToQueue`, with the index set to the pre-add length minus one |
| Player.NextAdvance | src/store/playerStore.ts:198-218 | repeat-one replays the current song; else the next entry; at the end, repeat-all goes to index 0; otherwise nothing happens; any step lands on a valid entry |
| Player.PreviousAdvance | src/store/playerStore.ts:221-237 | more than 3 s in restarts the current song; else the previous entry if any; else nothing happens |
| Player.CycleIndex | src/store/playerStore.ts:242-243 | `modes.indexOf(repeatMode)`: the position of the mode in `['off', 'all', 'one']` |
| Player.NextRepeatMode | src/store/playerStore.ts:240-246 | off → all → one → off |
| Player.WithStatus | src/store/playerStore.ts:92-103 | a loaded status sets the times and the playing flag; progress is position/duration, and 0 for a zero duration; every other field keeps its value |
| Player.PlayerStore.constructor | src/store/playerStore.ts:59-68 | the initial fields, with no sound loaded |
| Player.PlayerStore.Cleanup | src/store/playerStore.ts:268-278 | the sound is forgotten either way and released only when unloading succeeds |
| Player.PlayerStore.PlaySong | src/store/playerStore.ts:71-125 | the fields become `Played`; the old sound is released and at most one new one created, so no sound leaks when unloading succeeds; the queue is touched only when adding after a successful load |
| Player.PlayerStore.Start | src/store/playerStore.ts:78-124 | the lookup-and-create part of `playSong`, with the failure path caught |
| Player.PlayerStore.PlayNext | src/store/playerStore.ts:198-218 | carries out `NextAdvance` on the player and the queue |
| Player.PlayerStore.PlayPrevious | src/store/playerStore.ts:221-237 | carries out `PreviousAdvance` on the player and the queue |
| Player.PlayerStore.OnStatus | src/store/playerStore.ts:91-109 | an unloaded status changes nothing; a loaded one applies `WithStatus`; a finished track then advances as `playNext` |
| Player.PlayerStore.TogglePlayPause | src/store/playerStore.ts:128-144 | with a sound and a successful call, the playing flag flips; otherwise nothing changes |
| Player.PlayerStore.Pause | src/store/playerStore.ts:147-157 | with a sound and a successful call, playback stops; otherwise nothing changes |
| Player.PlayerStore.Resume | src/store/playerStore.ts:160-170 | with a sound and a successful call, playback starts; otherwise nothing changes |
| Player.PlayerStore.Stop | src/store/playerStore.ts:173-183 | with a sound and a successful call, playback stops and rewinds to 0 |
| Player.PlayerStore.SeekTo | src/store/playerStore.ts:186-195 | a seek to `position * 1000` ms is requested exactly when a sound is held |
| Player.PlayerStore.ToggleRepeat | src/store/playerStore.ts:240-246 | only the repeat mode changes, to the next in the cycle |
| Player.PlayerStore.ToggleShuffle | src/store/playerStore.ts:249-260 | the flag flips; turning it on shuffles the queue, turning it off restores the original order |
| Player.PlayerStore.SetProgress | src/store/playerStore.ts:263-265 | only the three times change |
| Player.RepeatCycleReturns | src/store/playerStore.ts:240-246 | each toggle changes the mode, and three toggles come back to the start |
| Player.RepeatAllNeverStops | src/store/playerStore.ts:210-216 | under repeat-all a non-empty queue always plays something next |
| Player.RepeatOffStopsAtEnd | src/store/playerStore.ts:207-216 | with repeat off, `playNext` on the last entry does nothing |
| Player.PlaySongSelectsPreviousLast | src/store/playerStore.ts:115-118 | playing and queueing a new song selects the entry before it, not the song itself |
| Player.PlaySongQueuedSelectsBeforeEnd | src/store/playerStore.ts:115-118 | playing and queueing a queued song selects the last index but one, not the song's position |
| Player.PlayPlaylist | src/screens/PlaylistsScreen.tsx:66-73 | after `setQueue` then `playSong`, the queue is the playlist, and the selected entry is the current song |
| Player.PlayQueueEntry | src/screens/QueueScreen.tsx:30-35 | tapping an entry selects it and makes it the current song; an invalid index changes nothing |
| Search.Unlike | src/store/searchStore.ts:41-43 | the entries that differ from the key once lower-cased, in order, with their counts |
| Search.WithRecentSearch | src/store/searchStore.ts:34-49 | a blank query changes nothing; otherwise the trimmed query comes first, then at most 9 older entries that differ from it ignoring case |
| Search.RecentSearchShape | src/store/searchStore.ts:41-46 | after a search, no older entry equals the new one ignoring case, and the older entries keep their order |
| Search.WithoutRecentSearch | src/store/searchStore.ts:52-59 | every entry equal to the query ignoring case goes; the others stay in order |
| Search.RecentSearchTwice | src/store/searchStore.ts:34-49 | searching for the same text twice lists it once |
| Search.RecentSearchesCapped | src/store/searchStore.ts:23 | adding and removing keep the list at 10 entries or fewer |
| Search.SearchStore.constructor | src/store/searchStore.ts:28-31 | all fields empty, and not searching |
| Search.SearchStore.AddRecentSearch | src/store/searchStore.ts:34-49 | the list becomes `WithRecentSearch` of the old one; the other fields stay |
| Search.SearchStore.RemoveRecentSearch | src/store/searchStore.ts:52-59 | the list becomes `WithoutRecentSearch` of the old one; the other fields stay |
| Search.SearchStore.ClearRecentSearches | src/store/searchStore.ts:62-64 | the list is emptied; the other fields stay |
| Search.SearchStore.SetSearchResults | src/store/searchStore.ts:67-69 | only the results change |
| Search.SearchStore.SetIsSearching | src/store/searchStore.ts:72-74 | only the searching flag changes |
| Search.SearchStore.SetSearchQuery | src/store/searchStore.ts:77-79 | only the query changes |
| Search.SearchStore.ClearSearchResults | src/store/searchStore.ts:82-84 | the results and the query are emptied; the rest stays |
| Recent.WithPlayed | src/store/recentlyPlayedStore.ts:19-28 | the song comes first, then at most 4 older songs with other ids, in order |
| Recent.PlayedOnlyAtHead | src/store/recentlyPlayedStore.ts:23 | after a play the song's id occurs only at the head |
| Recent.PlayedKeepsIdsUnique | src/store/recentlyPlayedStore.ts:19-28 | playing keeps the ids in the list distinct |
| Recent.PlayedTwice | src/store/recentlyPlayedStore.ts:19-28 | playing the same song twice lists it once |
| Recent.RecentlyPlayedStore.constructor | src/store/recentlyPlayedStore.ts:17 | an empty list |
| Recent.RecentlyPlayedStore.AddToRecentlyPlayed | src/store/recentlyPlayedStore.ts:19-28 | the list becomes `WithPlayed` of the old one |
| Recent.RecentlyPlayedStore.ClearRecentlyPlayed | src/store/recentlyPlayedStore.ts:31-33 | the list is emptied |
| Favorites.WithFavorite | src/store/favoritesStore.ts:20-25 | appended only when the id is not listed yet; the id is listed afterwards |
| Favorites.Toggled | src/store/favoritesStore.ts:37-44 | the id is listed afterwards exactly when it was not listed before |
| Favorites.AddFavoriteIdempotent | src/store/favoritesStore.ts:20-25 | adding twice equals adding once, and keeps ids distinct |
| Favorites.RemoveFavoriteKeepsUnique | src/store/favoritesStore.ts:27-30 | removing keeps ids distinct |
| Favorites.ToggleTwiceRestores | src/store/favoritesStore.ts:37-44 | toggling an unlisted song twice gives back the list |
| Favorites.FavoritesStore.constructor | src/store/favoritesStore.ts:18 | an empty list |
| Favorites.FavoritesStore.IsFavorite | src/store/favoritesStore.ts:32-35 | true exactly when some entry has the id |
| Favorites.FavoritesStore.AddToFavorites | src/store/favoritesStore.ts:20-25 | the list becomes `WithFavorite` of the old one |
| Favorites.FavoritesStore.RemoveFromFavorites | src/store/favoritesStore.ts:27-30 | the list loses every entry with the id |
| Favorites.FavoritesStore.ToggleFavorite | src/store/favoritesStore.ts:37-44 | the list becomes `Toggled` of the old one, and `IsFavorite` flips |
| Favorites.FavoritesStore.ClearFavorites | src/store/favoritesStore.ts:46-48 | the list is emptied |
| Playlists.CoverOf | src/store/playlistStore.ts:63 | the third artwork URL when present and non-empty, else the second artwork's URL, else none |
| Playlists.NewPlaylist | src/store/playlistStore.ts:22-32 | a new playlist is named as asked, is empty, has no cover, and carries the creation time in both time fields |
| Playlists.NewPlaylistIdIsTime | src/store/playlistStore.ts:24 | the new playlist's id reads back as the creation time |
| Playlists.Deleted | src/store/playlistStore.ts:34-38 | every playlist with the id goes; the others stay in order |
| Playlists.Renamed | src/store/playlistStore.ts:43-45 | the name and the update time change; id, songs, creation time and cover are kept |
| Playlists.UpdateWhere | src/store/playlistStore.ts:41-47 | `map`: playlists with the id are updated, and every other playlist is left as it was |
| Playlists.WithSong | src/store/playlistStore.ts:53-63 | a listed id changes nothing; otherwise the song is appended, the time is updated, and an empty cover is taken from the song |
| Playlists.WithoutSong | src/store/playlistStore.ts:71-79 | every song with the id goes, the time is updated, and the cover comes from the new first song |
| Playlists.IndexOfPlaylist | src/store/playlistStore.ts:87 | `find` by id as a position: the first match, or -1 when there is none |
| Playlists.GetPlaylist | src/store/playlistStore.ts:86-88 | the first playlist with the id (no earlier playlist has it), or `None` exactly when there is none |
| Playlists.IsSongInPlaylist | src/store/playlistStore.ts:90-93 | true exactly when the playlist exists and lists the song's id |
| Playlists.WithSongKeepsUnique | src/store/playlistStore.ts:55-57 | adding keeps a playlist's song ids distinct |
| Playlists.WithoutSongKeepsUnique | src/store/playlistStore.ts:73 | removing keeps a playlist's song ids distinct |
| Playlists.AddThenRemoveSong | src/store/playlistStore.ts:50-84 | removing a song just added gives back the songs |
| Playlists.UpdateKeepsLookup | src/store/playlistStore.ts:40-84 | updates that keep ids leave every lookup by id pointing at the same position |
| Playlists.AddedSongIsInPlaylist | src/store/playlistStore.ts:50-67 | after adding to an existing playlist, the song is in it |
| Playlists.PlaylistStore.constructor | src/store/playlistStore.ts:20 | no playlists |
| Playlists.PlaylistStore.CreatePlaylist | src/store/playlistStore.ts:22-32 | appends and returns `NewPlaylist` |
| Playlists.PlaylistStore.DeletePlaylist | src/store/playlistStore.ts:34-38 | the list becomes `Deleted` of the old one |
| Playlists.PlaylistStore.RenamePlaylist | src/store/playlistStore.ts:40-48 | the playlists with the id get the new name and time; the others are unchanged |
| Playlists.PlaylistStore.AddSongToPlaylist | src/store/playlistStore.ts:50-67 | `WithSong` is applied to the playlists with the id |
| Playlists.PlaylistStore.RemoveSongFromPlaylist | src/store/playlistStore.ts:69-84 | `WithoutSong` is applied to the playlists with the id |
| Downloads.IsDownloaded | src/store/downloadStore.ts:139-141 | true exactly when some saved entry has the id |
| Downloads.GetLocalPath | src/store/downloadStore.ts:144-147 | the first matching entry's non-empty path; `None` when there is no entry or its path is empty |
| Downloads.GetDownloadProgress | src/store/downloadStore.ts:150-152 | the progress entry for the id, or `None` exactly when there is none |
| Downloads.AfterDownload | src/store/downloadStore.ts:39-114 | at most one entry is appended, after the old ones, and it holds the song and the time; the progress of every other song is unchanged |
| Downloads.AfterRemoval | src/store/downloadStore.ts:117-136 | no entry and no progress is left for the id; other entries keep their order and counts, and other progress keys stay |
| Downloads.DownloadGuards | src/store/downloadStore.ts:43-52 | a song already saved, or one being downloaded, is left alone |
| Downloads.DownloadWithoutUrlFails | src/store/downloadStore.ts:57-60 | without a URL the status becomes failed at 0, nothing is saved, and other entries stay |
| Downloads.DownloadSucceeds | src/store/downloadStore.ts:90-103 | a saved file appends exactly one entry and marks it completed at 1; the song then reads as downloaded at that path |
| Downloads.DownloadKeepsValid | src/store/downloadStore.ts:43 | downloads keep saved ids distinct, and keep every progress entry under its own id |
| Downloads.RemovalKeepsValid | src/store/downloadStore.ts:129-135 | removals keep that invariant |
| Downloads.SongsOfFilter | src/store/downloadStore.ts:130 | filtering saved entries by id filters their songs the same way |
| Downloads.RemovalForgets | src/store/downloadStore.ts:129-135 | after removal the song has no entry, path or progress, and every other song reads as before |
| Downloads.DownloadThenRemove | src/store/downloadStore.ts:97-135 | saving then removing a song restores the saved list, and only drops its progress |
| Downloads.MissingUriBlocksRetry | src/store/downloadStore.ts:63-104 | a transfer ending without a URI leaves the status at downloading, so later attempts are refused |
| Downloads.FailedDownloadRetries | src/store/downloadStore.ts:105-112 | after a failed attempt, a retry that saves a file saves the song |
| Downloads.ClearDeletesEveryFile | src/store/downloadStore.ts:158-166 | every non-empty path is among those deleted, and no empty one is |
| Downloads.DownloadStore.constructor | src/store/downloadStore.ts:35-36 | both collections empty |
| Downloads.DownloadStore.DownloadSong | src/store/downloadStore.ts:39-114 | the store reaches `AfterDownload` of its old state |
| Downloads.DownloadStore.RemoveDownload | src/store/downloadStore.ts:117-136 | returns the first entry's path to delete, if truthy, and reaches `AfterRemoval` |
| Downloads.DownloadStore.ClearAllDownloads | src/store/downloadStore.ts:155-172 | returns the non-empty paths in order and empties both collections |

## Left out

- Persistence (AsyncStorage through zustand `persist`) is not modelled. The persisted fields are: recent searches; recently played; favourites; playlists; downloaded songs; the queue's three fields.
- Network calls of the API client (search, song and album fetches) are not modelled. Only its pure helpers are.
- Audio configuration (`setAudioModeAsync`) is not modelled. Every call into the audio library is an opaque success flag.
- Concurrency is not modelled: overlapping `playSong` calls, or awaits interleaved with other actions. Every action runs to completion before the next one.
- Floating point is not modelled. Positions and durations are whole milliseconds, and progress is an exact `real`. The status callback's `duration/1000` and `position/duration` become exact arithmetic.
- Intermediate download-progress callbacks are not modelled (`src/store/downloadStore.ts:77-85`). They only overwrite the fraction of an in-flight download, which is floating-point byte arithmetic.
- `Date.now()` is a `now` parameter. `createPlaylist` reads it three times, and the model uses one value for all three.
- Unicode is not modelled. `toLowerCase`, `trim` and `parseInt` are modelled on ASCII only.
- `Queue.QueueStore.ShuffleQueue`: requires a queue of at most one song or a selection in range. With a queue of two or more songs and an index outside it, the source puts `undefined` at the head of the shuffled queue; that outcome is not modelled.
- `Player.PlayerStore.ToggleShuffle`: turning shuffle on has the same requirement as `Queue.QueueStore.ShuffleQueue`, and its new state is given by the relation `IsShuffleOf`, not as a function.
- `Queue.FisherYates`: the random draws are a `rolls` input, reduced to the valid range. The model states what the pass keeps (the same songs), not that the permutation is uniform.
- `Queue.NextSong`: reads outside the array, which give `undefined` in JavaScript, are `None`.
- `Queue.PreviousSong`: a selection past the end of the queue reads outside the array, which gives `undefined` in JavaScript; the model gives `None`. Every caller treats both as no song.
- `Api.FormatDuration`: durations are whole numbers of seconds or text. Non-integer numbers, and the result of `NaN` arithmetic on them, are not modelled.
- `Downloads.AfterRemoval`: `removeDownload` sets the progress key to `undefined` rather than deleting it. The model deletes the key; every reader of the map sees the same answer either way.
- The logging calls (`console.log`, `console.error`) are left out.
- The file system is abstract. The download directory check, the transfer, and the deletions are outcomes passed in, or paths returned.
- The `Playlist` type's declaration is not part of this model. Its fields come from the values the store builds (`src/store/playlistStore.ts:23-30`).

=== FILE: api.dfy ===
/** The pure helpers of the content API client (src/services/api.ts): choosing
    an artwork or stream URL by quality tag, rendering a duration as `m:ss`, and
    the display name of a song's artists. The HTTP calls are not modelled. */
module Api {
  import opened Wrappers
  import opened Types
  import opened Text

  const PLACEHOLDER_IMAGE := "https://via.placeholder.com/500x500?text=No+Image"
  const IMAGE_QUALITY_ORDER: seq<string> := ["500x500", "150x150", "50x50"]
  const DOWNLOAD_QUALITY_ORDER: seq<string> := ["320kbps", "160kbps", "96kbps", "48kbps", "12kbps"]
  const DEFAULT_DOWNLOAD_QUALITY := "320kbps"
  const UNKNOWN_ARTIST := "Unknown Artist"

  /** `v.url || v.link || ''`: the first non-empty of the two. */
  function UrlOf(v: Variant): (r: string)
    ensures r == "" || r == v.url || (v.link.Some? && r == v.link.value)
    ensures v.url != "" ==> r == v.url
    ensures r == "" <==> v.url == "" && (v.link.None? || v.link.value == "")
  {
    if v.url != "" then v.url else if v.link.Some? then v.link.value else ""
  }

  /** `j` is the first entry of `vs` tagged `q`. */
  ghost predicate IsFirstTagged(vs: seq<Variant>, j: int, q: string)
  {
    0 <= j < |vs| && vs[j].quality == q && forall i :: 0 <= i < j ==> vs[i].quality != q
  }

  /** No entry of `vs` is tagged `q`. */
  ghost predicate Untagged(vs: seq<Variant>, q: string)
  {
    forall i :: 0 <= i < |vs| ==> vs[i].quality != q
  }

  /** `vs.find(v => v.quality === q)`, as a position. */
  function FindQuality(vs: seq<Variant>, q: string): (r: Option<nat>)
    ensures r.Some? ==> IsFirstTagged(vs, r.value, q)
    ensures r.None? <==> Untagged(vs, q)
  {
    if vs == [] then None
    else if vs[0].quality == q then Some(0)
    else
      var k := FindQuality(vs[1..], q);
      assert forall i :: 1 <= i < |vs| ==> vs[i] == vs[1..][i - 1];
      if k.None? then None else Some(k.value + 1)
  }

  /** The `for (const quality of order)` search: the first entry carrying the
      best-ranked tag of `order` that occurs at all. */
  function FindRanked(vs: seq<Variant>, order: seq<string>): (r: Option<nat>)
    ensures r.Some? ==> exists k :: 0 <= k < |order| && IsFirstTagged(vs, r.value, order[k]) &&
                          forall k' :: 0 <= k' < k ==> Untagged(vs, order[k'])
    ensures r.None? <==> forall k :: 0 <= k < |order| ==> Untagged(vs, order[k])
  {
    if order == [] then None
    else
      var here := FindQuality(vs, order[0]);
      if here.Some? then
        assert IsFirstTagged(vs, here.value, order[0]);
        here
      else
        var later := FindRanked(vs, order[1..]);
        assert forall k :: 1 <= k < |order| ==> order[k] == order[1..][k - 1];
        assert later.Some? ==> exists k :: 0 <= k < |order| && IsFirstTagged(vs, later.value, order[k]) &&
                                 forall k' :: 0 <= k' < k ==> Untagged(vs, order[k']) by {
          if later.Some? {
            var k :| 0 <= k < |order[1..]| && IsFirstTagged(vs, later.value, order[1..][k]) &&
                     forall k' :: 0 <= k' < k ==> Untagged(vs, order[1..][k']);
            assert IsFirstTagged(vs, later.value, order[k + 1]);
          }
        }
        later
  }

  /** The outcome of a ranked lookup: the chosen entry, or, when no tag of the
      order occurs, the last entry. */
  ghost predicate RankedChoice(vs: seq<Variant>, order: seq<string>, r: string)
  {
    && (forall k, j ::
          (0 <= k < |order| && IsFirstTagged(vs, j, order[k]) &&
           forall k' :: 0 <= k' < k ==> Untagged(vs, order[k'])) ==> r == UrlOf(vs[j]))
    && (|vs| > 0 && (forall k :: 0 <= k < |order| ==> Untagged(vs, order[k])) ==> r == UrlOf(vs[|vs| - 1]))
  }

  /** `getBestDownloadUrl`: '' for no entries; else the first entry with the
      preferred tag; else the first entry with the best tag of 320/160/96/48/12
      kbps; else the last entry. The answer is always '' or a URL of an entry. */
  function GetBestDownloadUrl(vs: seq<Variant>, preferred: string): (r: string)
    ensures vs == [] ==> r == ""
    ensures r == "" || exists j :: 0 <= j < |vs| && r == UrlOf(vs[j])
    ensures forall j :: IsFirstTagged(vs, j, preferred) ==> r == UrlOf(vs[j])
    ensures vs != [] && Untagged(vs, preferred) ==> RankedChoice(vs, DOWNLOAD_QUALITY_ORDER, r)
  {
    if vs == [] then ""
    else
      var preferredAt := FindQuality(vs, preferred);
      if preferredAt.Some? then UrlOf(vs[preferredAt.value])
      else PickRanked(vs, DOWNLOAD_QUALITY_ORDER)
  }

  /** The fallback both lookups share: the first entry with the best tag of
      `order`, or the last entry when no tag of `order` occurs. */
  function PickRanked(vs: seq<Variant>, order: seq<string>): (r: string)
    requires vs != []
    ensures r == "" || exists j :: 0 <= j < |vs| && r == UrlOf(vs[j])
    ensures RankedChoice(vs, order, r)
  {
    var ranked := FindRanked(vs, order);
    if ranked.Some? then UrlOf(vs[ranked.value]) else UrlOf(vs[|vs| - 1])
  }

  /** `getBestImageUrl`: the placeholder for no entries; else the first entry
      with the best tag of 500x500/150x150/50x50; else the last entry. */
  function GetBestImageUrl(vs: seq<Variant>): (r: string)
    ensures vs == [] ==> r == PLACEHOLDER_IMAGE
    ensures vs != [] ==> (r == "" || exists j :: 0 <= j < |vs| && r == UrlOf(vs[j]))
    ensures vs != [] ==> RankedChoice(vs, IMAGE_QUALITY_ORDER, r)
  {
    if vs == [] then PLACEHOLDER_IMAGE
    else
      PickRanked(vs, IMAGE_QUALITY_ORDER)
  }

  /** The first entry tagged with the preferred quality is chosen over any
      better-ranked tag: asking for 96kbps in a list that also has 320kbps
      yields the 96kbps entry. */
  lemma PreferredBeatsRanking(hi: Variant, lo: Variant)
    requires hi.quality == "320kbps" && lo.quality == "96kbps"
    ensures GetBestDownloadUrl([hi, lo], "96kbps") == UrlOf(lo)
    ensures GetBestDownloadUrl([hi, lo], DEFAULT_DOWNLOAD_QUALITY) == UrlOf(hi)
  {
    assert IsFirstTagged([hi, lo], 1, "96kbps");
    assert IsFirstTagged([hi, lo], 0, "320kbps");
  }

  /** JavaScript's `%`, whose result takes the sign of the dividend: the
      remainder of the division whose quotient is truncated toward zero. */
  function JsRem(n: int, d: nat): (r: int)
    requires d > 0
    ensures n >= 0 ==> r == n % d
    ensures r < d && -r < d
    ensures n < 0 ==> r <= 0
    ensures exists q: int :: n == q * d + r && (n >= 0 ==> q >= 0) && (n < 0 ==> q <= 0)
  {
    var q := if n >= 0 then n / d else -((-n) / d);
    var r := if n >= 0 then n % d else -((-n) % d);
    assert n == q * d + r;
    r
  }

  /** `${Math.floor(n / 60)}:${(n % 60).toString().padStart(2, '0')}`. */
  function Clock(n: int): (r: string)
    ensures n >= 0 ==> r == NatToString(n / 60) + ":" + PadStart2(NatToString(n % 60))
    ensures n < 0 ==> |r| > 0 && r[0] == '-'
  {
    IntToString(n / 60) + ":" + PadStart2(IntToString(JsRem(n, 60)))
  }

  /** `formatDuration` on the integer and string values the `duration` field
      holds: '0:00' for a falsy value or text that does not parse. What the
      rendering means is `FormatDurationRoundTrip`: the text reads back as
      the whole minutes and the remaining seconds. */
  function FormatDuration(d: DurationValue): (r: string)
    ensures d.Missing? || d == Seconds(0) || d == Text("") ==> r == "0:00"
    ensures d.Text? && ParseInt(d.s).None? ==> r == "0:00"
    ensures d.Seconds? ==> r == Clock(d.n)
    ensures d.Text? && ParseInt(d.s).Some? ==> r == Clock(ParseInt(d.s).value)
  {
    match d
    case Missing => "0:00"
    case Seconds(n) => if n == 0 then "0:00" else Clock(n)
    case Text(s) =>
      if s == "" then "0:00"
      else
        var total := ParseInt(s);
        if total.None? then "0:00" else Clock(total.value)
  }

  /** Reads `m:ss` back as its minutes and seconds: a run of digits, a colon
      and exactly two digits. */
  function ClockParts(s: string): Option<(nat, nat)>
  {
    if |s| < 4 || s[|s| - 3] != ':' then None
    else
      var minutes, seconds := s[..|s| - 3], s[|s| - 2..];
      if AllDigits(minutes) && AllDigits(seconds)
      then Some((ParseDigits(minutes), ParseDigits(seconds)))
      else None
  }

  /** A two-digit seconds field reads back as the number it renders. */
  lemma SecondsField(r: nat)
    requires r < 60
    ensures |PadStart2(NatToString(r))| == 2 && AllDigits(PadStart2(NatToString(r)))
    ensures ParseDigits(PadStart2(NatToString(r))) == r
  {
    var p := PadStart2(NatToString(r));
    if r < 10 {
      assert p == ['0', DigitChar(r)];
      assert p[..1] == ['0'];
    }
  }

  /** A run of digits, a colon and two digits reads back as its two numbers. */
  lemma ReadClockParts(mm: string, ss: string)
    requires |mm| >= 1 && AllDigits(mm) && |ss| == 2 && AllDigits(ss)
    ensures ClockParts(mm + ":" + ss) == Some((ParseDigits(mm), ParseDigits(ss)))
  {
    var s := mm + ":" + ss;
    assert s[..|s| - 3] == mm;
    assert s[|s| - 2..] == ss;
  }

  /** `formatDuration` of a number of seconds renders `m:ss` where `m` and `ss`
      read back as the whole minutes and the remaining seconds of that number:
      e.g. 125 becomes '2:05'. */
  lemma FormatDurationRoundTrip(n: nat)
    ensures ClockParts(FormatDuration(Seconds(n))) == Some((n / 60, n % 60))
  {
    var mm, ss := NatToString(n / 60), PadStart2(NatToString(n % 60));
    assert FormatDuration(Seconds(n)) == mm + ":" + ss;
    SecondsField(n % 60);
    ReadClockParts(mm, ss);
  }

  /** A duration stored as a string of digits is rendered like the number. */
  lemma DurationTextAsNumber(n: nat)
    ensures FormatDuration(Text(NatToString(n))) == FormatDuration(Seconds(n))
  {
    ParseIntOfNat(n);
    if n == 0 {
      assert Clock(0) == "0:00";
    }
  }

  lemma FormatDurationExample()
    ensures FormatDuration(Seconds(125)) == "2:05"
  {
    assert JsRem(125, 60) == 5;
    assert IntToString(2) == "2" && IntToString(5) == "5";
    assert PadStart2("5") == "05";
  }

  /** Negative durations follow JavaScript's rounding: -5 seconds renders
      as '-1:-5'. */
  lemma FormatDurationNegative()
    ensures FormatDuration(Seconds(-5)) == "-1:-5"
  {
    assert -5 / 60 == -1 && JsRem(-5, 60) == -5;
    assert IntToString(-1) == "-1" && IntToString(-5) == "-5";
    assert PadStart2("-5") == "-5";
  }

  /** The offset at which the `k`-th name starts in `Join(names, sep)`. */
  function NameOffset(names: seq<string>, sep: string, k: nat): nat
    requires k <= |names|
  {
    if k == 0 then 0 else NameOffset(names, sep, k - 1) + |names[k - 1]| + |sep|
  }

  /** `names.join(sep)`. */
  function Join(names: seq<string>, sep: string): (r: string)
    ensures names == [] ==> r == ""
    ensures names != [] ==> |r| == NameOffset(names, sep, |names| - 1) + |names[|names| - 1]|
  {
    if |names| <= 1 then (if names == [] then "" else names[0])
    else
      var front := names[..|names| - 1];
      OffsetOfPrefix(names, sep, |names| - 1, |names| - 2);
      OffsetOfPrefix(names, sep, |names| - 1, |names| - 1);
      Join(front, sep) + sep + names[|names| - 1]
  }

  lemma {:induction false} OffsetOfPrefix(names: seq<string>, sep: string, m: nat, k: nat)
    requires k <= m <= |names|
    ensures NameOffset(names[..m], sep, k) == NameOffset(names, sep, k)
  {
    if k > 0 {
      OffsetOfPrefix(names, sep, m, k - 1);
    }
  }

  /** In `names.join(sep)` the `k`-th name sits at its offset. */
  lemma {:induction false} JoinPlacesName(names: seq<string>, sep: string, k: nat)
    requires k < |names|
    ensures NameOffset(names, sep, k) + |names[k]| <= |Join(names, sep)|
    ensures Join(names, sep)[NameOffset(names, sep, k)..NameOffset(names, sep, k) + |names[k]|] == names[k]
  {
    var n := |names|;
    if n > 1 {
      var front := names[..n - 1];
      var j := Join(front, sep);
      var r := Join(names, sep);
      assert r == j + sep + names[n - 1];
      OffsetOfPrefix(names, sep, n - 1, k);
      if k < n - 1 {
        JoinPlacesName(front, sep, k);
        assert front[k] == names[k];
        assert r[..|j|] == j;
      } else {
        OffsetOfPrefix(names, sep, n - 1, n - 2);
      }
    }
  }

  /** In `names.join(sep)` every name after the first is preceded by `sep`. */
  lemma {:induction false} JoinSeparates(names: seq<string>, sep: string, k: nat)
    requires 0 < k < |names|
    ensures NameOffset(names, sep, k) <= |Join(names, sep)|
    ensures Join(names, sep)[NameOffset(names, sep, k) - |sep|..NameOffset(names, sep, k)] == sep
  {
    var n := |names|;
    var front := names[..n - 1];
    var j := Join(front, sep);
    var r := Join(names, sep);
    assert r == j + sep + names[n - 1];
    OffsetOfPrefix(names, sep, n - 1, k);
    if k < n - 1 {
      JoinSeparates(front, sep, k);
      assert r[..|j|] == j;
    } else {
      OffsetOfPrefix(names, sep, n - 1, n - 2);
    }
  }

  function ArtistNames(artists: seq<Artist>): (r: seq<string>)
    ensures |r| == |artists| && forall i :: 0 <= i < |artists| ==> r[i] == artists[i].name
  {
    seq(|artists|, i requires 0 <= i < |artists| => artists[i].name)
  }

  /** `getArtistNames`: a non-empty `primaryArtists` text wins; else the
      primary artists' names joined with ', '; else 'Unknown Artist'. */
  function GetArtistNames(song: Song): (r: string)
    ensures song.primaryArtists.Some? && song.primaryArtists.value != "" ==> r == song.primaryArtists.value
    ensures (song.primaryArtists.None? || song.primaryArtists.value == "") && song.artists.None? ==> r == UNKNOWN_ARTIST
    ensures (song.primaryArtists.None? || song.primaryArtists.value == "") && song.artists.Some? ==>
      r == Join(ArtistNames(song.artists.value.primary), ", ")
  {
    if song.primaryArtists.Some? && song.primaryArtists.value != "" then song.primaryArtists.value
    else if song.artists.Some? then Join(ArtistNames(song.artists.value.primary), ", ")
    else UNKNOWN_ARTIST
  }
}

=== FILE: downloads.dfy ===
/** The bookkeeping of the download store (src/store/downloadStore.ts): the
    songs saved for offline play, and the progress of each download by song
    id. The file system is abstracted: how the directory check and the
    transfer end is a parameter, and the files to delete are returned. */
module Downloads {
  import opened Wrappers
  import opened Types
  import Api
  import Seqs

  /** A saved song (`DownloadedSong`): the song, where its file is, and when
      it was saved. */
  datatype DownloadedSong = DownloadedSong(song: Song, localPath: string, downloadedAt: int)

  datatype DownloadStatus = Pending | Downloading | Completed | Failed

  datatype DownloadProgress = DownloadProgress(songId: string, progress: real, status: DownloadStatus)

  /** How the file system side of `downloadSong` ends: the download directory
      cannot be made, the transfer throws, or it finishes with a file URI
      (empty when the result carries none). */
  datatype Transfer = DirFailed | TransferFailed | Finished(uri: string)

  /** The two collections of the store. */
  datatype Downloads = Downloads(songs: seq<DownloadedSong>, progress: map<string, DownloadProgress>)

  const Empty := Downloads([], map[])

  /** The songs of the saved entries, position by position. */
  function SongsOf(ds: seq<DownloadedSong>): (r: seq<Song>)
    ensures |r| == |ds| && forall i :: 0 <= i < |ds| ==> r[i] == ds[i].song
  {
    seq(|ds|, i requires 0 <= i < |ds| => ds[i].song)
  }

  /** The file paths of the saved entries, position by position. */
  function LocalPaths(ds: seq<DownloadedSong>): (r: seq<string>)
    ensures |r| == |ds| && forall i :: 0 <= i < |ds| ==> r[i] == ds[i].localPath
  {
    seq(|ds|, i requires 0 <= i < |ds| => ds[i].localPath)
  }

  /** `isDownloaded(songId)`: some saved entry has the id. */
  function IsDownloaded(ds: seq<DownloadedSong>, id: string): (r: bool)
    ensures r <==> exists i :: 0 <= i < |ds| && ds[i].song.id == id
  {
    assert forall i :: 0 <= i < |ds| ==> SongsOf(ds)[i].id == ds[i].song.id;
    HasId(SongsOf(ds), id)
  }

  /** Position `i` holds the first entry with the id. */
  predicate FirstWithId(ds: seq<DownloadedSong>, id: string, i: int)
  {
    0 <= i < |ds| && ds[i].song.id == id && forall j :: 0 <= j < i ==> ds[j].song.id != id
  }

  /** `getLocalPath(songId)`: the path of the first entry with the id, or
      `None` when there is no such entry or its path is empty. */
  function GetLocalPath(ds: seq<DownloadedSong>, id: string): (r: Option<string>)
    ensures r.Some? ==> r.value != "" && exists i :: FirstWithId(ds, id, i) && ds[i].localPath == r.value
    ensures r.None? ==> forall i :: FirstWithId(ds, id, i) ==> ds[i].localPath == ""
    ensures !IsDownloaded(ds, id) ==> r.None?
  {
    var k := IndexOfId(SongsOf(ds), id);
    if k < 0 || ds[k].localPath == "" then None else Some(ds[k].localPath)
  }

  /** `getDownloadProgress(songId)`: the entry for the id, or `None`. */
  function GetDownloadProgress(m: map<string, DownloadProgress>, id: string): (r: Option<DownloadProgress>)
    ensures r.Some? <==> id in m
    ensures r.Some? ==> r.value == m[id]
  {
    if id in m then Some(m[id]) else None
  }

  /** A download of `id` is in flight. */
  predicate IsDownloading(m: map<string, DownloadProgress>, id: string)
  {
    id in m && m[id].status == Downloading
  }

  /** The store's invariant: no song is saved twice, and every progress entry
      is filed under its own song id. */
  ghost predicate Valid(st: Downloads)
  {
    UniqueIds(SongsOf(st.songs)) &&
    forall id :: id in st.progress ==> st.progress[id].songId == id
  }

  /** `downloadSong(song)` as a change of state; `now` is the time read when
      the file is saved. */
  function AfterDownload(st: Downloads, song: Song, t: Transfer, now: int): (r: Downloads)
    ensures |st.songs| <= |r.songs| <= |st.songs| + 1 && r.songs[..|st.songs|] == st.songs
    ensures |r.songs| == |st.songs| + 1 ==> r.songs[|st.songs|].song == song && r.songs[|st.songs|].downloadedAt == now
    ensures forall k :: k != song.id ==> (k in r.progress <==> k in st.progress)
    ensures forall k :: k != song.id && k in st.progress ==> r.progress[k] == st.progress[k]
  {
    var id := song.id;
    if IsDownloaded(st.songs, id) || IsDownloading(st.progress, id) then st
    else if t.DirFailed? || Api.GetBestDownloadUrl(song.downloadUrl, Api.DEFAULT_DOWNLOAD_QUALITY) == ""
      || t.TransferFailed?
    then st.(progress := st.progress[id := DownloadProgress(id, 0.0, Failed)])
    else if t.uri == "" then st.(progress := st.progress[id := DownloadProgress(id, 0.0, Downloading)])
    else Downloads(st.songs + [DownloadedSong(song, t.uri, now)],
                   st.progress[id := DownloadProgress(id, 1.0, Completed)])
  }

  /** `removeDownload(songId)` as a change of state. */
  function AfterRemoval(st: Downloads, id: string): (r: Downloads)
    ensures !IsDownloaded(r.songs, id) && id !in r.progress
    ensures Seqs.IsSubsequence(r.songs, st.songs)
    ensures forall d :: multiset(r.songs)[d] == if d.song.id != id then multiset(st.songs)[d] else 0
    ensures forall k :: k in st.progress && k != id <==> k in r.progress
  {
    Downloads(Seqs.Filter(st.songs, (d: DownloadedSong) => d.song.id != id), st.progress - {id})
  }

  /** A song already saved, or being downloaded, is left alone. */
  lemma DownloadGuards(st: Downloads, song: Song, t: Transfer, now: int)
    requires IsDownloaded(st.songs, song.id) || IsDownloading(st.progress, song.id)
    ensures AfterDownload(st, song, t, now) == st
  {
  }

  /** Without a download URL the attempt fails: its status becomes `Failed`
      with progress 0, nothing is saved, and no other entry changes. */
  lemma DownloadWithoutUrlFails(st: Downloads, song: Song, t: Transfer, now: int)
    requires !IsDownloaded(st.songs, song.id) && !IsDownloading(st.progress, song.id)
    requires Api.GetBestDownloadUrl(song.downloadUrl, Api.DEFAULT_DOWNLOAD_QUALITY) == ""
    ensures var r := AfterDownload(st, song, t, now);
      r.songs == st.songs &&
      GetDownloadProgress(r.progress, song.id) == Some(DownloadProgress(song.id, 0.0, Failed)) &&
      forall k :: k != song.id ==> GetDownloadProgress(r.progress, k) == GetDownloadProgress(st.progress, k)
  {
  }

  /** A transfer that ends with a file saves exactly one entry, the song with
      that path and time, and marks the download completed: the song then
      reads as downloaded, at that path. */
  lemma DownloadSucceeds(st: Downloads, song: Song, uri: string, now: int)
    requires !IsDownloaded(st.songs, song.id) && !IsDownloading(st.progress, song.id)
    requires Api.GetBestDownloadUrl(song.downloadUrl, Api.DEFAULT_DOWNLOAD_QUALITY) != "" && uri != ""
    ensures var r := AfterDownload(st, song, Finished(uri), now);
      r.songs == st.songs + [DownloadedSong(song, uri, now)] &&
      GetDownloadProgress(r.progress, song.id) == Some(DownloadProgress(song.id, 1.0, Completed)) &&
      IsDownloaded(r.songs, song.id) && GetLocalPath(r.songs, song.id) == Some(uri)
  {
    var r := AfterDownload(st, song, Finished(uri), now);
    var n := |st.songs|;
    assert r.songs[n].song.id == song.id;
    assert IndexOfId(SongsOf(r.songs), song.id) == n by {
      assert forall j :: 0 <= j < n ==> SongsOf(r.songs)[j] == st.songs[j].song;
    }
  }

  /** Every change of the store keeps its invariant: the guard is what keeps
      a song from being saved twice. */
  lemma DownloadKeepsValid(st: Downloads, song: Song, t: Transfer, now: int)
    requires Valid(st)
    ensures Valid(AfterDownload(st, song, t, now))
  {
    var r := AfterDownload(st, song, t, now);
    if r.songs != st.songs {
      var n := |st.songs|;
      assert !IsDownloaded(st.songs, song.id);
      forall i, j | 0 <= i < j < |r.songs| ensures SongsOf(r.songs)[i].id != SongsOf(r.songs)[j].id {
        if j == n {
          assert r.songs[i] == st.songs[i];
        } else {
          assert SongsOf(r.songs)[i] == SongsOf(st.songs)[i] && SongsOf(r.songs)[j] == SongsOf(st.songs)[j];
        }
      }
    }
  }

  lemma RemovalKeepsValid(st: Downloads, id: string)
    requires Valid(st)
    ensures Valid(AfterRemoval(st, id))
  {
    SongsOfFilter(st.songs, id);
    UniqueIdsSubsequence(WithoutId(SongsOf(st.songs), id), SongsOf(st.songs));
  }

  /** Filtering saved entries by id filters their songs the same way. */
  lemma {:induction false} SongsOfFilter(ds: seq<DownloadedSong>, id: string)
    ensures SongsOf(Seqs.Filter(ds, (d: DownloadedSong) => d.song.id != id)) ==
      Seqs.Filter(SongsOf(ds), (x: Song) => x.id != id)
  {
    var keep := (d: DownloadedSong) => d.song.id != id;
    var keepSong := (x: Song) => x.id != id;
    if ds != [] {
      var head := if keep(ds[0]) then [ds[0]] else [];
      var headSong := if keepSong(ds[0].song) then [ds[0].song] else [];
      var rest := Seqs.Filter(ds[1..], keep);
      SongsOfFilter(ds[1..], id);
      assert SongsOf(rest) == Seqs.Filter(SongsOf(ds[1..]), keepSong);
      Seqs.FilterUnfold(ds, keep);
      assert Seqs.Filter(ds, keep) == head + rest;
      SongsOfConcat(head, rest);
      assert SongsOf(head) == headSong;
      SongsOfCons(ds);
      Seqs.FilterUnfold(SongsOf(ds), keepSong);
      assert Seqs.Filter(SongsOf(ds), keepSong) == headSong + Seqs.Filter(SongsOf(ds[1..]), keepSong);
    }
  }

  lemma SongsOfCons(ds: seq<DownloadedSong>)
    requires ds != []
    ensures SongsOf(ds)[0] == ds[0].song && SongsOf(ds)[1..] == SongsOf(ds[1..])
  {
  }

  lemma SongsOfConcat(a: seq<DownloadedSong>, b: seq<DownloadedSong>)
    ensures SongsOf(a + b) == SongsOf(a) + SongsOf(b)
  {
  }

  /** After a removal the song reads as not downloaded, with no path and no
      progress, and every other song reads as before. */
  lemma RemovalForgets(st: Downloads, id: string, other: string)
    requires other != id
    ensures var r := AfterRemoval(st, id);
      !IsDownloaded(r.songs, id) && GetLocalPath(r.songs, id).None? &&
      GetDownloadProgress(r.progress, id).None? &&
      (IsDownloaded(r.songs, other) <==> IsDownloaded(st.songs, other)) &&
      GetDownloadProgress(r.progress, other) == GetDownloadProgress(st.progress, other)
  {
    if IsDownloaded(st.songs, other) {
      OtherStaysDownloaded(st, id, other);
    }
    if IsDownloaded(AfterRemoval(st, id).songs, other) {
      OnlyDownloadedStays(st, id, other);
    }
  }

  /** A song with another id is still saved after a removal. */
  lemma OtherStaysDownloaded(st: Downloads, id: string, other: string)
    requires other != id && IsDownloaded(st.songs, other)
    ensures IsDownloaded(AfterRemoval(st, id).songs, other)
  {
    var r := AfterRemoval(st, id);
    var i :| 0 <= i < |st.songs| && st.songs[i].song.id == other;
    assert multiset(r.songs)[st.songs[i]] == multiset(st.songs)[st.songs[i]] > 0;
  }

  /** A removal saves nothing new. */
  lemma OnlyDownloadedStays(st: Downloads, id: string, other: string)
    requires IsDownloaded(AfterRemoval(st, id).songs, other)
    ensures IsDownloaded(st.songs, other)
  {
    var r := AfterRemoval(st, id);
    var i :| 0 <= i < |r.songs| && r.songs[i].song.id == other;
    Seqs.SubsequenceElements(r.songs, st.songs);
  }

  /** Saving a song, then removing it, forgets it again. */
  lemma DownloadThenRemove(st: Downloads, song: Song, uri: string, now: int)
    requires !IsDownloaded(st.songs, song.id) && !IsDownloading(st.progress, song.id)
    requires Api.GetBestDownloadUrl(song.downloadUrl, Api.DEFAULT_DOWNLOAD_QUALITY) != "" && uri != ""
    ensures AfterRemoval(AfterDownload(st, song, Finished(uri), now), song.id) ==
      Downloads(st.songs, st.progress - {song.id})
  {
    SavedState(st, song, uri, now);
    RemoveLastSaved(st.songs, DownloadedSong(song, uri, now), st.progress,
                    DownloadProgress(song.id, 1.0, Completed));
  }

  /** The whole state after a successful download. */
  lemma SavedState(st: Downloads, song: Song, uri: string, now: int)
    requires !IsDownloaded(st.songs, song.id) && !IsDownloading(st.progress, song.id)
    requires Api.GetBestDownloadUrl(song.downloadUrl, Api.DEFAULT_DOWNLOAD_QUALITY) != "" && uri != ""
    ensures AfterDownload(st, song, Finished(uri), now) ==
      Downloads(st.songs + [DownloadedSong(song, uri, now)],
                st.progress[song.id := DownloadProgress(song.id, 1.0, Completed)])
  {
  }

  /** Removing the song saved last, when no earlier entry has its id, gives
      back the earlier entries. */
  lemma RemoveLastSaved(songs: seq<DownloadedSong>, saved: DownloadedSong,
                        before: map<string, DownloadProgress>, p: DownloadProgress)
    requires !IsDownloaded(songs, saved.song.id)
    ensures AfterRemoval(Downloads(songs + [saved], before[saved.song.id := p]), saved.song.id) ==
      Downloads(songs, before - {saved.song.id})
  {
    var id := saved.song.id;
    Seqs.FilterDropsAppended(songs, saved, (d: DownloadedSong) => d.song.id != id);
    assert before[id := p] - {id} == before - {id};
  }

  /** A transfer that ends without a file URI leaves the status at
      `Downloading`, so every later attempt for that song is refused until
      the song is removed. */
  lemma MissingUriBlocksRetry(st: Downloads, song: Song, now: int, t: Transfer, later: int)
    requires !IsDownloaded(st.songs, song.id) && !IsDownloading(st.progress, song.id)
    requires Api.GetBestDownloadUrl(song.downloadUrl, Api.DEFAULT_DOWNLOAD_QUALITY) != ""
    ensures var r := AfterDownload(st, song, Finished(""), now);
      r.songs == st.songs && IsDownloading(r.progress, song.id) &&
      AfterDownload(r, song, t, later) == r
  {
  }

  /** A failed attempt may be retried, and a retry that ends with a file
      saves the song. */
  lemma FailedDownloadRetries(st: Downloads, song: Song, now: int, uri: string, later: int)
    requires !IsDownloaded(st.songs, song.id) && !IsDownloading(st.progress, song.id)
    requires Api.GetBestDownloadUrl(song.downloadUrl, Api.DEFAULT_DOWNLOAD_QUALITY) != "" && uri != ""
    ensures var r := AfterDownload(st, song, TransferFailed, now);
      AfterDownload(r, song, Finished(uri), later).songs == st.songs + [DownloadedSong(song, uri, later)]
  {
  }

  /** The paths `clearAllDownloads` deletes: every non-empty one, in order. */
  lemma ClearDeletesEveryFile(ds: seq<DownloadedSong>)
    ensures var deleted := Seqs.Filter(LocalPaths(ds), (p: string) => p != "");
      (forall i :: 0 <= i < |ds| && ds[i].localPath != "" ==> ds[i].localPath in deleted) &&
      "" !in deleted
  {
    var deleted := Seqs.Filter(LocalPaths(ds), (p: string) => p != "");
    forall i | 0 <= i < |ds| && ds[i].localPath != "" ensures ds[i].localPath in deleted {
      assert multiset(LocalPaths(ds))[ds[i].localPath] > 0;
    }
  }

  /** Filtering the paths of one more entry extends the filtered paths by
      that entry's path, when it is kept. */
  lemma PathsStep(ds: seq<DownloadedSong>, i: nat, keep: string -> bool)
    requires i < |ds|
    ensures Seqs.Filter(LocalPaths(ds[..i + 1]), keep) ==
      Seqs.Filter(LocalPaths(ds[..i]), keep) + (if keep(ds[i].localPath) then [ds[i].localPath] else [])
  {
    var last := [ds[i].localPath];
    assert LocalPaths(ds[..i + 1]) == LocalPaths(ds[..i]) + last;
    Seqs.FilterConcat(LocalPaths(ds[..i]), last, keep);
    Seqs.FilterUnfold(last, keep);
    assert last[1..] == [];
  }

  class DownloadStore {
    var downloadedSongs: seq<DownloadedSong>
    var downloadProgress: map<string, DownloadProgress>

    function State(): Downloads
      reads this
    {
      Downloads(downloadedSongs, downloadProgress)
    }

    constructor()
      ensures State() == Empty
    {
      downloadedSongs, downloadProgress := [], map[];
    }

    /** `downloadSong(song)`: the two guards, then the directory check, the
        URL choice, the in-flight status, and the outcome of the transfer. */
    method DownloadSong(song: Song, t: Transfer, now: int)
      modifies this
      ensures State() == AfterDownload(old(State()), song, t, now)
    {
      var id := song.id;
      if IsDownloaded(downloadedSongs, id) {
        return;
      }
      if id in downloadProgress && downloadProgress[id].status == Downloading {
        return;
      }
      var failed := DownloadProgress(id, 0.0, Failed);
      if t.DirFailed? {
        downloadProgress := downloadProgress[id := failed];
        return;
      }
      var downloadUrl := Api.GetBestDownloadUrl(song.downloadUrl, Api.DEFAULT_DOWNLOAD_QUALITY);
      if downloadUrl == "" {
        downloadProgress := downloadProgress[id := failed];
        return;
      }
      downloadProgress := downloadProgress[id := DownloadProgress(id, 0.0, Downloading)];
      if t.TransferFailed? {
        downloadProgress := downloadProgress[id := failed];
        return;
      }
      if t.uri != "" {
        downloadedSongs := downloadedSongs + [DownloadedSong(song, t.uri, now)];
        downloadProgress := downloadProgress[id := DownloadProgress(id, 1.0, Completed)];
      }
    }

    /** `removeDownload(songId)`: returns the file to delete, if any. */
    method RemoveDownload(songId: string) returns (deleted: Option<string>)
      modifies this
      ensures deleted == GetLocalPath(old(downloadedSongs), songId)
      ensures State() == AfterRemoval(old(State()), songId)
    {
      deleted := GetLocalPath(downloadedSongs, songId);
      downloadedSongs := Seqs.Filter(downloadedSongs, (d: DownloadedSong) => d.song.id != songId);
      downloadProgress := downloadProgress - {songId};
    }

    /** `clearAllDownloads()`: returns the files to delete, in order, then
        empties both collections. */
    method ClearAllDownloads() returns (deleted: seq<string>)
      modifies this
      ensures deleted == Seqs.Filter(LocalPaths(old(downloadedSongs)), (p: string) => p != "")
      ensures State() == Empty
    {
      var ds := downloadedSongs;
      var nonEmpty := (p: string) => p != "";
      deleted := [];
      for i := 0 to |ds|
        invariant deleted == Seqs.Filter(LocalPaths(ds[..i]), nonEmpty)
      {
        PathsStep(ds, i, nonEmpty);
        if ds[i].localPath != "" {
          deleted := deleted + [ds[i].localPath];
        }
      }
      assert ds[..|ds|] == ds;
      downloadedSongs, downloadProgress := [], map[];
    }
  }
}

=== FILE: favorites.dfy ===
/** The favourites list (src/store/favoritesStore.ts): songs in the order
    they were liked, each id at most once. */
module Favorites {
  import opened Types
  import Seqs

  /** `addToFavorites(song)`: appended only when its id is not listed yet. */
  function WithFavorite(favorites: seq<Song>, song: Song): (r: seq<Song>)
    ensures HasId(favorites, song.id) ==> r == favorites
    ensures !HasId(favorites, song.id) ==> r == favorites + [song]
    ensures HasId(r, song.id)
  {
    if HasId(favorites, song.id) then favorites
    else
      assert (favorites + [song])[|favorites|] == song;
      favorites + [song]
  }

  /** `toggleFavorite(song)`: removes the song's id if listed, adds the song
      otherwise. */
  function Toggled(favorites: seq<Song>, song: Song): (r: seq<Song>)
    ensures HasId(favorites, song.id) ==> r == WithoutId(favorites, song.id)
    ensures !HasId(favorites, song.id) ==> r == favorites + [song]
    ensures HasId(r, song.id) <==> !HasId(favorites, song.id)
  {
    if HasId(favorites, song.id) then WithoutId(favorites, song.id)
    else WithFavorite(favorites, song)
  }

  /** Adding is idempotent and keeps the ids distinct. */
  lemma AddFavoriteIdempotent(favorites: seq<Song>, song: Song)
    ensures WithFavorite(WithFavorite(favorites, song), song) == WithFavorite(favorites, song)
    ensures UniqueIds(favorites) ==> UniqueIds(WithFavorite(favorites, song))
  {
  }

  /** Removing keeps the ids distinct. */
  lemma RemoveFavoriteKeepsUnique(favorites: seq<Song>, id: string)
    requires UniqueIds(favorites)
    ensures UniqueIds(WithoutId(favorites, id))
  {
    UniqueIdsSubsequence(WithoutId(favorites, id), favorites);
  }

  /** Toggling an unlisted song twice gives back the same list. */
  lemma ToggleTwiceRestores(favorites: seq<Song>, song: Song)
    requires !HasId(favorites, song.id)
    ensures Toggled(Toggled(favorites, song), song) == favorites
  {
    var keep := (x: Song) => x.id != song.id;
    Seqs.FilterConcat(favorites, [song], keep);
    WithoutAbsentId(favorites, song.id);
    assert Seqs.Filter([song], keep) == [] by {
      assert [song][1..] == [];
    }
  }

  class FavoritesStore {
    var favorites: seq<Song>

    constructor()
      ensures favorites == []
    {
      favorites := [];
    }

    /** `isFavorite(songId)`. */
    function IsFavorite(songId: string): (r: bool)
      reads this
      ensures r <==> exists i :: 0 <= i < |favorites| && favorites[i].id == songId
    {
      HasId(favorites, songId)
    }

    method AddToFavorites(song: Song)
      modifies this
      ensures favorites == WithFavorite(old(favorites), song)
    {
      if !HasId(favorites, song.id) {
        favorites := favorites + [song];
      }
    }

    method RemoveFromFavorites(songId: string)
      modifies this
      ensures favorites == WithoutId(old(favorites), songId)
    {
      favorites := WithoutId(favorites, songId);
    }

    method ToggleFavorite(song: Song)
      modifies this
      ensures favorites == Toggled(old(favorites), song)
      ensures IsFavorite(song.id) <==> !old(IsFavorite(song.id))
    {
      if IsFavorite(song.id) {
        RemoveFromFavorites(song.id);
      } else {
        AddToFavorites(song);
      }
    }

    method ClearFavorites()
      modifies this
      ensures favorites == []
    {
      favorites := [];
    }
  }
}

=== FILE: player.dfy ===
/** The player controller (src/store/playerStore.ts): which song is loaded,
    whether it plays, the playback modes, and the one sound object the store
    holds at a time.

    The audio library is abstract: a sound object is a `Sound` handle, and
    every call into the library (create, unload, play, pause, stop, seek)
    either succeeds or fails, as a boolean parameter says. The ghost set
    `loaded` holds the handles that were created and not yet unloaded, so a
    handle the store forgets without unloading it stays visible there. */
module Player {
  import opened Wrappers
  import opened Types
  import Api
  import Queue

  /** A sound object; `serial` tells the objects the library hands out apart. */
  datatype Sound = Sound(serial: nat)

  /** The player's own fields, as one value. `soundsCreated` counts the sound
      objects created so far and so names the next one. */
  datatype Session = Session(
    currentSong: Option<Song>,
    isPlaying: bool,
    isLoading: bool,
    progress: real,
    durationMillis: nat,
    positionMillis: nat,
    repeatMode: RepeatMode,
    isShuffled: bool,
    sound: Option<Sound>,
    soundsCreated: nat)

  /** The initial state: nothing loaded, repeat off, not shuffled. */
  const Initial := Session(None, false, false, 0.0, 0, 0, Off, false, None, 0)

  /** A playback status report (`AVPlaybackStatus`), with the times in
      milliseconds. */
  datatype PlaybackStatus = PlaybackStatus(
    isLoaded: bool,
    durationMillis: nat,
    positionMillis: nat,
    isPlaying: bool,
    didJustFinish: bool)

  /** Whether `playSong(song)` gets a sound object: the song has a stream URL
      and creating the object succeeds. */
  predicate Loads(song: Song, createOk: bool)
  {
    Api.GetBestDownloadUrl(song.downloadUrl, Api.DEFAULT_DOWNLOAD_QUALITY) != "" && createOk
  }

  /** The player's fields after `playSong(song)`: the song is current and no
      longer loading; it plays, with a fresh sound object, exactly when it
      loads; otherwise no sound object is held. Progress, modes and shuffle
      are untouched. */
  function Played(s: Session, song: Song, createOk: bool): (r: Session)
    ensures r.currentSong == Some(song) && !r.isLoading
    ensures r.isPlaying <==> Loads(song, createOk)
    ensures r.sound.Some? <==> Loads(song, createOk)
    ensures r.sound.Some? ==> r.sound.value == Sound(s.soundsCreated) && r.soundsCreated == s.soundsCreated + 1
    ensures r.sound.None? ==> r.soundsCreated == s.soundsCreated
    ensures r.progress == s.progress && r.durationMillis == s.durationMillis && r.positionMillis == s.positionMillis
    ensures r.repeatMode == s.repeatMode && r.isShuffled == s.isShuffled
  {
    if Loads(song, createOk) then
      s.(currentSong := Some(song), isLoading := false, isPlaying := true,
         sound := Some(Sound(s.soundsCreated)), soundsCreated := s.soundsCreated + 1)
    else
      s.(currentSong := Some(song), isLoading := false, isPlaying := false, sound := None)
  }

  /** The loaded handles after `cleanup`: the held one goes only if unloading
      it succeeds. */
  function Released(loaded: set<Sound>, sound: Option<Sound>, unloadOk: bool): (r: set<Sound>)
    ensures r <= loaded
    ensures sound.Some? && unloadOk ==> sound.value !in r && loaded - r <= {sound.value}
    ensures !(sound.Some? && unloadOk) ==> r == loaded
  {
    if sound.Some? && unloadOk then loaded - {sound.value} else loaded
  }

  /** The queue after `playSong(song, true)`: the song is added to the queue,
      then the selection is set from the length the queue had before the add
      (the store reads it from a snapshot taken before `addToQueue`). */
  function SelectedAfterAdd(q: Queue.QueueState, song: Song): (r: Queue.QueueState)
    ensures r.currentIndex == |q.queue| - 1
    ensures r.queue == Queue.Added(q, song).queue && r.originalQueue == Queue.Added(q, song).originalQueue
  {
    Queue.Added(q, song).(currentIndex := |q.queue| - 1)
  }

  /** What `playNext` and `playPrevious` decide to do. */
  datatype Advance = Stay | Replay(song: Song) | Step(index: int, song: Song)

  /** The advance policy of `playNext`: repeat-one replays the current song;
      otherwise the next queued song is played; at the end of the queue,
      repeat-all starts over at position 0; otherwise nothing happens. */
  function NextAdvance(mode: RepeatMode, current: Option<Song>, q: Queue.QueueState): (r: Advance)
    ensures mode == One && current.Some? ==> r == Replay(current.value)
    ensures !(mode == One && current.Some?) && Queue.NextSong(q).Some? ==>
      r == Step(q.currentIndex + 1, Queue.NextSong(q).value)
    ensures !(mode == One && current.Some?) && Queue.NextSong(q).None? && mode == All && |q.queue| > 0 ==>
      r == Step(0, q.queue[0])
    ensures r == Stay <==>
      !(mode == One && current.Some?) && Queue.NextSong(q).None? && !(mode == All && |q.queue| > 0)
    ensures r.Step? ==> 0 <= r.index < |q.queue| && q.queue[r.index] == r.song
  {
    if mode == One && current.Some? then Replay(current.value)
    else
      var next := Queue.NextSong(q);
      if next.Some? then Step(q.currentIndex + 1, next.value)
      else if mode == All && |q.queue| > 0 then Step(0, q.queue[0])
      else Stay
  }

  /** The rule of `playPrevious`: more than three seconds into a song restarts
      it; otherwise the previous queued song is played, if there is one. */
  function PreviousAdvance(positionMillis: nat, current: Option<Song>, q: Queue.QueueState): (r: Advance)
    ensures positionMillis > 3000 && current.Some? ==> r == Replay(current.value)
    ensures !(positionMillis > 3000 && current.Some?) && Queue.PreviousSong(q).Some? ==>
      r == Step(q.currentIndex - 1, Queue.PreviousSong(q).value)
    ensures r == Stay <==> !(positionMillis > 3000 && current.Some?) && Queue.PreviousSong(q).None?
    ensures r.Step? ==> 0 <= r.index < |q.queue| && q.queue[r.index] == r.song
  {
    if positionMillis > 3000 && current.Some? then Replay(current.value)
    else
      var previous := Queue.PreviousSong(q);
      if previous.Some? then Step(q.currentIndex - 1, previous.value) else Stay
  }

  /** The player and the queue after carrying out `adv` with `playSong(…, false)`. */
  ghost predicate Advanced(before: Session, qBefore: Queue.QueueState, adv: Advance, createOk: bool,
                           after: Session, qAfter: Queue.QueueState)
  {
    match adv
    case Stay => after == before && qAfter == qBefore
    case Replay(song) => after == Played(before, song, createOk) && qAfter == qBefore
    case Step(index, song) =>
      after == Played(before, song, createOk) && qAfter == qBefore.(currentIndex := index)
  }

  /** The order `toggleRepeat` steps through. */
  const RepeatCycle: seq<RepeatMode> := [Off, All, One]

  function CycleIndex(mode: RepeatMode): (i: nat)
    ensures i < |RepeatCycle| && RepeatCycle[i] == mode
  {
    match mode
    case Off => 0
    case All => 1
    case One => 2
  }

  /** `toggleRepeat`: the mode after `mode` in the cycle, wrapping around. */
  function NextRepeatMode(mode: RepeatMode): (r: RepeatMode)
    ensures mode == Off ==> r == All
    ensures mode == All ==> r == One
    ensures mode == One ==> r == Off
  {
    RepeatCycle[(CycleIndex(mode) + 1) % |RepeatCycle|]
  }

  /** The fields after a status report: times, progress and the playing flag
      follow the report; progress is 0 when the duration is 0. */
  function WithStatus(s: Session, status: PlaybackStatus): (r: Session)
    requires status.isLoaded
    ensures r.durationMillis == status.durationMillis && r.positionMillis == status.positionMillis
    ensures r.isPlaying == status.isPlaying
    ensures status.durationMillis == 0 ==> r.progress == 0.0
    ensures status.durationMillis > 0 ==> r.progress * status.durationMillis as real == status.positionMillis as real
    ensures r.currentSong == s.currentSong && r.repeatMode == s.repeatMode && r.sound == s.sound
    ensures r.isLoading == s.isLoading && r.isShuffled == s.isShuffled && r.soundsCreated == s.soundsCreated
  {
    var progress := if status.durationMillis > 0
      then status.positionMillis as real / status.durationMillis as real
      else 0.0;
    s.(durationMillis := status.durationMillis, positionMillis := status.positionMillis,
       progress := progress, isPlaying := status.isPlaying)
  }

  class PlayerStore {
    var currentSong: Option<Song>
    var isPlaying: bool
    var isLoading: bool
    var progress: real
    var durationMillis: nat
    var positionMillis: nat
    var repeatMode: RepeatMode
    var isShuffled: bool
    var sound: Option<Sound>
    var soundsCreated: nat
    ghost var loaded: set<Sound>
    const queueStore: Queue.QueueStore

    function Fields(): Session
      reads this
    {
      Session(currentSong, isPlaying, isLoading, progress, durationMillis, positionMillis,
              repeatMode, isShuffled, sound, soundsCreated)
    }

    /** The held handle is loaded, and every loaded handle was created
        earlier (so the next one created is new). */
    ghost predicate Valid()
      reads this
    {
      (sound.Some? ==> sound.value in loaded) &&
      forall h :: h in loaded ==> h.serial < soundsCreated
    }

    /** No sound object is loaded except the one the store holds. */
    ghost predicate NoLeak()
      reads this
    {
      loaded == if sound.Some? then {sound.value} else {}
    }

    constructor(queueStore: Queue.QueueStore)
      ensures Fields() == Initial && this.queueStore == queueStore
      ensures loaded == {} && Valid() && NoLeak()
    {
      currentSong, isPlaying, isLoading := None, false, false;
      progress, durationMillis, positionMillis := 0.0, 0, 0;
      repeatMode, isShuffled, sound, soundsCreated := Off, false, None, 0;
      loaded := {};
      this.queueStore := queueStore;
    }

    /** `cleanup`: unloads the held sound object (which may fail) and forgets
        it either way. */
    method Cleanup(unloadOk: bool)
      requires Valid()
      modifies this
      ensures Valid()
      ensures Fields() == old(Fields()).(sound := None)
      ensures loaded == Released(old(loaded), old(sound), unloadOk)
    {
      if sound.Some? && unloadOk {
        loaded := loaded - {sound.value};
      }
      sound := None;
    }

    /** `playSong(song, addToQueue)` as one step. */
    method PlaySong(song: Song, addToQueue: bool, unloadOk: bool, createOk: bool)
      requires Valid()
      modifies this, queueStore
      ensures Valid()
      ensures Fields() == Played(old(Fields()), song, createOk)
      ensures loaded == Released(old(loaded), old(sound), unloadOk) +
        (if Loads(song, createOk) then {Sound(old(soundsCreated))} else {})
      ensures unloadOk && old(NoLeak()) ==> NoLeak()
      ensures addToQueue && Loads(song, createOk) ==>
        queueStore.State() == SelectedAfterAdd(old(queueStore.State()), song)
      ensures !(addToQueue && Loads(song, createOk)) ==> queueStore.State() == old(queueStore.State())
    {
      if sound.Some? {
        Cleanup(unloadOk);
      }
      isLoading, currentSong := true, Some(song);
      Start(song, addToQueue, createOk);
    }

    /** The `try`/`catch` part of `playSong`: look up the stream, create and
        hold a new sound object, and queue the song if asked to; a missing
        stream or a failed creation ends loading with nothing playing. */
    method Start(song: Song, addToQueue: bool, createOk: bool)
      requires Valid() && sound.None? && currentSong == Some(song)
      modifies this, queueStore
      ensures Valid()
      ensures Fields() == Played(old(Fields()), song, createOk)
      ensures loaded == old(loaded) + (if Loads(song, createOk) then {Sound(old(soundsCreated))} else {})
      ensures addToQueue && Loads(song, createOk) ==>
        queueStore.State() == SelectedAfterAdd(old(queueStore.State()), song)
      ensures !(addToQueue && Loads(song, createOk)) ==> queueStore.State() == old(queueStore.State())
    {
      var downloadUrl := Api.GetBestDownloadUrl(song.downloadUrl, Api.DEFAULT_DOWNLOAD_QUALITY);
      if downloadUrl == "" || !createOk {
        // the thrown error is caught: loading stops, nothing plays
        isLoading, isPlaying := false, false;
        return;
      }
      var newSound := Sound(soundsCreated);
      soundsCreated := soundsCreated + 1;
      loaded := loaded + {newSound};
      sound, isLoading, isPlaying := Some(newSound), false, true;
      if addToQueue {
        var snapshotLength := |queueStore.queue|;
        queueStore.AddToQueue(song);
        queueStore.SetCurrentIndex(snapshotLength - 1);
      }
    }

    /** `playNext`, also run when a status report says the song finished. */
    method PlayNext(unloadOk: bool, createOk: bool)
      requires Valid()
      modifies this, queueStore
      ensures Valid()
      ensures Advanced(old(Fields()), old(queueStore.State()),
                       NextAdvance(old(repeatMode), old(currentSong), old(queueStore.State())), createOk,
                       Fields(), queueStore.State())
      ensures unloadOk && old(NoLeak()) ==> NoLeak()
    {
      if repeatMode == One && currentSong.Some? {
        PlaySong(currentSong.value, false, unloadOk, createOk);
        return;
      }
      var nextSong := Queue.NextSong(queueStore.State());
      if nextSong.Some? {
        queueStore.SetCurrentIndex(queueStore.currentIndex + 1);
        PlaySong(nextSong.value, false, unloadOk, createOk);
      } else if repeatMode == All && |queueStore.queue| > 0 {
        queueStore.SetCurrentIndex(0);
        PlaySong(queueStore.queue[0], false, unloadOk, createOk);
      }
    }

    /** `playPrevious`. */
    method PlayPrevious(unloadOk: bool, createOk: bool)
      requires Valid()
      modifies this, queueStore
      ensures Valid()
      ensures Advanced(old(Fields()), old(queueStore.State()),
                       PreviousAdvance(old(positionMillis), old(currentSong), old(queueStore.State())), createOk,
                       Fields(), queueStore.State())
      ensures unloadOk && old(NoLeak()) ==> NoLeak()
    {
      if positionMillis > 3000 && currentSong.Some? {
        PlaySong(currentSong.value, false, unloadOk, createOk);
        return;
      }
      var previousSong := Queue.PreviousSong(queueStore.State());
      if previousSong.Some? {
        queueStore.SetCurrentIndex(queueStore.currentIndex - 1);
        PlaySong(previousSong.value, false, unloadOk, createOk);
      }
    }

    /** The status callback of the sound object: a loaded status updates the
        times and the playing flag, and a finished song advances. */
    method OnStatus(status: PlaybackStatus, unloadOk: bool, createOk: bool)
      requires Valid()
      modifies this, queueStore
      ensures Valid()
      ensures !status.isLoaded ==> Fields() == old(Fields()) && queueStore.State() == old(queueStore.State())
      ensures status.isLoaded && !status.didJustFinish ==>
        Fields() == WithStatus(old(Fields()), status) && queueStore.State() == old(queueStore.State())
      ensures status.isLoaded && status.didJustFinish ==>
        Advanced(WithStatus(old(Fields()), status), old(queueStore.State()),
                 NextAdvance(old(repeatMode), old(currentSong), old(queueStore.State())), createOk,
                 Fields(), queueStore.State())
    {
      if status.isLoaded {
        durationMillis, positionMillis := status.durationMillis, status.positionMillis;
        progress := if status.durationMillis > 0
          then status.positionMillis as real / status.durationMillis as real
          else 0.0;
        isPlaying := status.isPlaying;
        if status.didJustFinish {
          PlayNext(unloadOk, createOk);
        }
      }
    }

    /** `togglePlayPause`: pauses a playing sound or plays a paused one; the
        flag follows only a successful call, and without a sound nothing
        happens. */
    method TogglePlayPause(ok: bool)
      modifies this
      ensures Fields() == if old(sound).Some? && ok then old(Fields()).(isPlaying := !old(isPlaying)) else old(Fields())
      ensures loaded == old(loaded)
    {
      if sound.None? {
        return;
      }
      if ok {
        isPlaying := !isPlaying;
      }
    }

    method Pause(ok: bool)
      modifies this
      ensures Fields() == if old(sound).Some? && ok then old(Fields()).(isPlaying := false) else old(Fields())
      ensures loaded == old(loaded)
    {
      if sound.Some? && ok {
        isPlaying := false;
      }
    }

    method Resume(ok: bool)
      modifies this
      ensures Fields() == if old(sound).Some? && ok then old(Fields()).(isPlaying := true) else old(Fields())
      ensures loaded == old(loaded)
    {
      if sound.Some? && ok {
        isPlaying := true;
      }
    }

    /** `stop`: a successful stop rewinds to the start and stops playing. */
    method Stop(ok: bool)
      modifies this
      ensures Fields() == if old(sound).Some? && ok
        then old(Fields()).(isPlaying := false, progress := 0.0, positionMillis := 0)
        else old(Fields())
      ensures loaded == old(loaded)
    {
      if sound.Some? && ok {
        isPlaying, progress, positionMillis := false, 0.0, 0;
      }
    }

    /** `seekTo(position)`: asks the held sound object to move to `position`
        seconds, in milliseconds, and changes no field of the store (the new
        position arrives with the next status report). */
    method SeekTo(position: real) returns (request: Option<real>)
      ensures request.Some? <==> sound.Some?
      ensures request.Some? ==> request.value == position * 1000.0
    {
      if sound.Some? {
        request := Some(position * 1000.0);
      } else {
        request := None;
      }
    }

    method ToggleRepeat()
      modifies this
      ensures Fields() == old(Fields()).(repeatMode := NextRepeatMode(old(repeatMode)))
      ensures loaded == old(loaded)
    {
      var index := CycleIndex(repeatMode);
      repeatMode := RepeatCycle[(index + 1) % |RepeatCycle|];
    }

    /** `toggleShuffle`: turning shuffle on shuffles the queue, turning it off
        restores the original order. The queue's shuffle needs its selection
        in range (see `Queue.QueueStore.ShuffleQueue`). */
    method ToggleShuffle(rolls: seq<nat>)
      requires isShuffled || |queueStore.queue| <= 1 || 0 <= queueStore.currentIndex < |queueStore.queue|
      modifies this, queueStore
      ensures Fields() == old(Fields()).(isShuffled := !old(isShuffled))
      ensures loaded == old(loaded)
      ensures !old(isShuffled) ==> Queue.IsShuffleOf(old(queueStore.State()), queueStore.State())
      ensures old(isShuffled) ==> queueStore.State() == Queue.Restored(old(queueStore.State()))
    {
      if !isShuffled {
        queueStore.ShuffleQueue(rolls);
      } else {
        queueStore.RestoreOriginalQueue();
      }
      isShuffled := !isShuffled;
    }

    method SetProgress(progress: real, positionMillis: nat, durationMillis: nat)
      modifies this
      ensures Fields() == old(Fields()).(progress := progress, positionMillis := positionMillis,
                                         durationMillis := durationMillis)
      ensures loaded == old(loaded)
    {
      this.progress, this.positionMillis, this.durationMillis := progress, positionMillis, durationMillis;
    }
  }

  /** Three toggles of the repeat mode come back to the start, and each
      toggle changes the mode. */
  lemma RepeatCycleReturns(mode: RepeatMode)
    ensures NextRepeatMode(mode) != mode
    ensures NextRepeatMode(NextRepeatMode(NextRepeatMode(mode))) == mode
  {
  }

  /** Under repeat-all a non-empty queue never runs out: `playNext` always
      plays something. */
  lemma RepeatAllNeverStops(current: Option<Song>, q: Queue.QueueState)
    requires |q.queue| > 0
    ensures NextAdvance(All, current, q) != Stay
  {
  }

  /** With repeat off, `playNext` on the last selected song does nothing. */
  lemma RepeatOffStopsAtEnd(current: Option<Song>, q: Queue.QueueState)
    requires q.currentIndex == |q.queue| - 1
    ensures NextAdvance(Off, current, q) == Stay
  {
  }

  /** `playSong(song, true)` for a song that is not queued appends it but
      selects the song that was last before it (or -1 for an empty queue):
      the selection does not name the song being played. */
  lemma PlaySongSelectsPreviousLast(q: Queue.QueueState, song: Song)
    requires !HasId(q.queue, song.id)
    ensures var r := SelectedAfterAdd(q, song);
      r.queue[|r.queue| - 1] == song && r.currentIndex == |r.queue| - 2
  {
  }

  /** `playSong(song, true)` for a queued song selects the position before the
      end rather than the song's own position. */
  lemma PlaySongQueuedSelectsBeforeEnd(q: Queue.QueueState, song: Song)
    requires HasId(q.queue, song.id)
    ensures var r := SelectedAfterAdd(q, song);
      r.queue == q.queue && r.currentIndex == |q.queue| - 1
  {
  }

  /** Playing a playlist (`setQueue(songs, i)` then `playSong(songs[i], false)`):
      the queue is the playlist with position `i` selected, and the player's
      current song is the selected one. */
  method PlayPlaylist(player: PlayerStore, songs: seq<Song>, i: nat, unloadOk: bool, createOk: bool)
    requires i < |songs| && player.Valid()
    modifies player, player.queueStore
    ensures player.Valid()
    ensures player.queueStore.State() == Queue.QueueState(songs, songs, i)
    ensures player.currentSong == Some(songs[i])
    ensures player.queueStore.queue[player.queueStore.currentIndex] == player.currentSong.value
    ensures player.isPlaying <==> Loads(songs[i], createOk)
  {
    player.queueStore.SetQueue(songs, i);
    player.PlaySong(songs[i], false, unloadOk, createOk);
  }

  /** Tapping a queue entry (`playFromQueue(i)` then, if a song came back,
      `playSong(song, false)`): an index outside the queue changes nothing;
      otherwise position `i` is selected and is the current song. */
  method PlayQueueEntry(player: PlayerStore, i: int, unloadOk: bool, createOk: bool)
    requires player.Valid()
    modifies player, player.queueStore
    ensures player.Valid()
    ensures !(0 <= i < |old(player.queueStore.queue)|) ==>
      player.Fields() == old(player.Fields()) && player.queueStore.State() == old(player.queueStore.State())
    ensures 0 <= i < |old(player.queueStore.queue)| ==>
      player.queueStore.State() == old(player.queueStore.State()).(currentIndex := i) &&
      player.currentSong == Some(player.queueStore.queue[i])
  {
    var song := player.queueStore.PlayFromQueue(i);
    if song.Some? {
      player.PlaySong(song.value, false, unloadOk, createOk);
    }
  }
}

=== FILE: playlists.dfy ===
/** The playlists (src/store/playlistStore.ts): named song lists, each song id
    at most once per list, with creation and update times and a cover picture
    taken from the songs' artwork. The clock (`Date.now()`) is a parameter
    `now`, in milliseconds. */
module Playlists {
  import opened Wrappers
  import opened Types
  import Text
  import Seqs

  /** `Playlist`: an id, a name, the songs, two times, and an optional cover
      picture URL. */
  datatype Playlist = Playlist(
    id: string,
    name: string,
    songs: seq<Song>,
    createdAt: int,
    updatedAt: int,
    coverImage: Option<string>)

  /** JavaScript truthiness of an optional string: present and non-empty. */
  predicate Truthy(s: Option<string>)
  {
    s.Some? && s.value != ""
  }

  /** `song.image?.[2]?.url || song.image?.[1]?.url`: the third artwork URL
      when it is non-empty, else the second one (possibly empty), else none. */
  function CoverOf(song: Song): (r: Option<string>)
    ensures |song.image| > 2 && song.image[2].url != "" ==> r == Some(song.image[2].url)
    ensures !(|song.image| > 2 && song.image[2].url != "") && |song.image| > 1 ==> r == Some(song.image[1].url)
    ensures |song.image| <= 1 ==> r.None?
  {
    if |song.image| > 2 && song.image[2].url != "" then Some(song.image[2].url)
    else if |song.image| > 1 then Some(song.image[1].url)
    else None
  }

  /** The playlist `createPlaylist(name)` makes: the id is the time in
      decimal, no songs, created and updated now, no cover. */
  function NewPlaylist(name: string, now: int): (p: Playlist)
    ensures p.name == name && p.songs == [] && p.createdAt == now && p.updatedAt == now
    ensures p.coverImage.None?
  {
    Playlist(Text.IntToString(now), name, [], now, now, None)
  }

  /** A new playlist's id reads back as the creation time. */
  lemma NewPlaylistIdIsTime(name: string, now: nat)
    ensures Text.ParseInt(NewPlaylist(name, now).id) == Some(now)
  {
    Text.ParseIntOfNat(now);
  }

  /** `deletePlaylist(id)`: every playlist with that id goes; the others stay
      in order. */
  function Deleted(playlists: seq<Playlist>, id: string): (r: seq<Playlist>)
    ensures Seqs.IsSubsequence(r, playlists)
    ensures forall i :: 0 <= i < |r| ==> r[i].id != id
    ensures forall p :: multiset(r)[p] == if p.id != id then multiset(playlists)[p] else 0
  {
    Seqs.Filter(playlists, (p: Playlist) => p.id != id)
  }

  /** Applies `update` to the playlists with id `id`, as `playlists.map` does.
      That an update keeping ids keeps every lookup is `UpdateKeepsLookup`. */
  function UpdateWhere(playlists: seq<Playlist>, id: string, update: Playlist -> Playlist): (r: seq<Playlist>)
    ensures |r| == |playlists|
    ensures forall i :: 0 <= i < |r| ==> r[i] == if playlists[i].id == id then update(playlists[i]) else playlists[i]
  {
    seq(|playlists|, i requires 0 <= i < |playlists| =>
      if playlists[i].id == id then update(playlists[i]) else playlists[i])
  }

  /** `renamePlaylist(id, newName)` on one playlist. */
  function Renamed(p: Playlist, newName: string, now: int): (r: Playlist)
    ensures r.id == p.id && r.songs == p.songs && r.createdAt == p.createdAt && r.coverImage == p.coverImage
    ensures r.name == newName && r.updatedAt == now
  {
    p.(name := newName, updatedAt := now)
  }

  /** `addSongToPlaylist` on one playlist: a song whose id is listed changes
      nothing (not even the time); otherwise it is appended, the playlist is
      updated now, and a missing or empty cover is taken from the song. */
  function WithSong(p: Playlist, song: Song, now: int): (r: Playlist)
    ensures HasId(p.songs, song.id) ==> r == p
    ensures !HasId(p.songs, song.id) ==>
      r.songs == p.songs + [song] && r.updatedAt == now &&
      r.coverImage == (if Truthy(p.coverImage) then p.coverImage else CoverOf(song))
    ensures r.id == p.id && r.name == p.name && r.createdAt == p.createdAt
  {
    if HasId(p.songs, song.id) then p
    else
      p.(songs := p.songs + [song], updatedAt := now,
         coverImage := if Truthy(p.coverImage) then p.coverImage else CoverOf(song))
  }

  /** `removeSongFromPlaylist` on one playlist: every song with the id goes,
      the playlist is updated now, and the cover is taken afresh from the new
      first song (none when the list is empty), whether or not a song went. */
  function WithoutSong(p: Playlist, songId: string, now: int): (r: Playlist)
    ensures r.songs == WithoutId(p.songs, songId) && r.updatedAt == now
    ensures r.songs == [] ==> r.coverImage.None?
    ensures r.songs != [] ==> r.coverImage == CoverOf(r.songs[0])
    ensures r.id == p.id && r.name == p.name && r.createdAt == p.createdAt
  {
    var newSongs := WithoutId(p.songs, songId);
    p.(songs := newSongs, updatedAt := now,
       coverImage := if newSongs == [] then None else CoverOf(newSongs[0]))
  }

  /** The first position holding a playlist with id `id`, or -1. */
  function IndexOfPlaylist(playlists: seq<Playlist>, id: string): (r: int)
    ensures -1 <= r < |playlists|
    ensures r >= 0 ==> playlists[r].id == id && forall j :: 0 <= j < r ==> playlists[j].id != id
    ensures r == -1 ==> forall j :: 0 <= j < |playlists| ==> playlists[j].id != id
  {
    if playlists == [] then -1
    else if playlists[0].id == id then 0
    else
      var k := IndexOfPlaylist(playlists[1..], id);
      assert forall j :: 1 <= j < |playlists| ==> playlists[j] == playlists[1..][j - 1];
      if k == -1 then -1 else k + 1
  }

  /** `getPlaylist(id)`: the first playlist with that id. */
  function GetPlaylist(playlists: seq<Playlist>, id: string): (r: Option<Playlist>)
    ensures r.None? <==> forall j :: 0 <= j < |playlists| ==> playlists[j].id != id
    ensures r.Some? ==> r.value.id == id && r.value in playlists
    ensures r.Some? ==> exists k :: 0 <= k < |playlists| && playlists[k] == r.value &&
                          forall j :: 0 <= j < k ==> playlists[j].id != id
  {
    var k := IndexOfPlaylist(playlists, id);
    if k == -1 then None else Some(playlists[k])
  }

  /** `isSongInPlaylist(playlistId, songId)`: false for an unknown playlist,
      otherwise whether its songs hold the id. */
  function IsSongInPlaylist(playlists: seq<Playlist>, playlistId: string, songId: string): (r: bool)
    ensures r <==> GetPlaylist(playlists, playlistId).Some? && HasId(GetPlaylist(playlists, playlistId).value.songs, songId)
  {
    var playlist := GetPlaylist(playlists, playlistId);
    playlist.Some? && HasId(playlist.value.songs, songId)
  }

  /** Adding a song keeps the playlist's song ids distinct. */
  lemma WithSongKeepsUnique(p: Playlist, song: Song, now: int)
    requires UniqueIds(p.songs)
    ensures UniqueIds(WithSong(p, song, now).songs)
  {
  }

  /** Removing a song keeps the playlist's song ids distinct. */
  lemma WithoutSongKeepsUnique(p: Playlist, songId: string, now: int)
    requires UniqueIds(p.songs)
    ensures UniqueIds(WithoutSong(p, songId, now).songs)
  {
    UniqueIdsSubsequence(WithoutId(p.songs, songId), p.songs);
  }

  /** Removing a song that was just added gives back the songs as they were. */
  lemma AddThenRemoveSong(p: Playlist, song: Song, now: int, later: int)
    requires !HasId(p.songs, song.id)
    ensures WithoutSong(WithSong(p, song, now), song.id, later).songs == p.songs
  {
    var keep := (x: Song) => x.id != song.id;
    Seqs.FilterConcat(p.songs, [song], keep);
    WithoutAbsentId(p.songs, song.id);
    assert Seqs.Filter([song], keep) == [] by {
      assert [song][1..] == [];
    }
  }

  /** Updates by id keep every playlist's id, so lookups find the same
      position afterwards. */
  lemma UpdateKeepsLookup(playlists: seq<Playlist>, id: string, update: Playlist -> Playlist, other: string)
    requires forall p :: update(p).id == p.id
    ensures IndexOfPlaylist(UpdateWhere(playlists, id, update), other) == IndexOfPlaylist(playlists, other)
  {
    var r := UpdateWhere(playlists, id, update);
    assert forall j :: 0 <= j < |r| ==> r[j].id == playlists[j].id;
  }

  /** After adding a song to an existing playlist, the song is in it. */
  lemma AddedSongIsInPlaylist(playlists: seq<Playlist>, id: string, song: Song, now: int)
    requires GetPlaylist(playlists, id).Some?
    ensures IsSongInPlaylist(UpdateWhere(playlists, id, p => WithSong(p, song, now)), id, song.id)
  {
    var update := (p: Playlist) => WithSong(p, song, now);
    var r := UpdateWhere(playlists, id, update);
    UpdateKeepsLookup(playlists, id, update, id);
    var k := IndexOfPlaylist(playlists, id);
    assert r[k] == WithSong(playlists[k], song, now);
    if !HasId(playlists[k].songs, song.id) {
      assert r[k].songs[|playlists[k].songs|] == song;
    }
  }

  class PlaylistStore {
    var playlists: seq<Playlist>

    constructor()
      ensures playlists == []
    {
      playlists := [];
    }

    method CreatePlaylist(name: string, now: int) returns (created: Playlist)
      modifies this
      ensures created == NewPlaylist(name, now)
      ensures playlists == old(playlists) + [created]
    {
      created := NewPlaylist(name, now);
      playlists := playlists + [created];
    }

    method DeletePlaylist(playlistId: string)
      modifies this
      ensures playlists == Deleted(old(playlists), playlistId)
    {
      playlists := Deleted(playlists, playlistId);
    }

    method RenamePlaylist(playlistId: string, newName: string, now: int)
      modifies this
      ensures playlists == UpdateWhere(old(playlists), playlistId, p => Renamed(p, newName, now))
    {
      playlists := UpdateWhere(playlists, playlistId, p => Renamed(p, newName, now));
    }

    method AddSongToPlaylist(playlistId: string, song: Song, now: int)
      modifies this
      ensures playlists == UpdateWhere(old(playlists), playlistId, p => WithSong(p, song, now))
    {
      playlists := UpdateWhere(playlists, playlistId, p => WithSong(p, song, now));
    }

    method RemoveSongFromPlaylist(playlistId: string, songId: string, now: int)
      modifies this
      ensures playlists == UpdateWhere(old(playlists), playlistId, p => WithoutSong(p, songId, now))
    {
      playlists := UpdateWhere(playlists, playlistId, p => WithoutSong(p, songId, now));
    }
  }
}

=== FILE: queue.dfy ===
/** The playback queue (src/store/queueStore.ts): the songs in play order, the
    order they had before any shuffle, and the position of the current song.

    Every action is given twice: as a transition function on `QueueState`
    values, which states what the action computes and which the lemmas relate,
    and as a method of `QueueStore`, whose fields the action overwrites as the
    store's `set` does, proved to reach exactly that state. */
module Queue {
  import opened Wrappers
  import opened Types
  import Seqs

  datatype QueueState = QueueState(queue: seq<Song>, originalQueue: seq<Song>, currentIndex: int)

  /** The state of a fresh store and of `clearQueue`. */
  const Empty := QueueState([], [], -1)

  /** The queue is a rearrangement of the original order, as far as ids go:
      every id occurs in both lists equally often. */
  ghost predicate SameIds(st: QueueState)
  {
    multiset(Ids(st.queue)) == multiset(Ids(st.originalQueue))
  }

  /** `currentIndex` is -1 (nothing selected) or a position of the queue. */
  predicate Bounded(st: QueueState)
  {
    -1 <= st.currentIndex < |st.queue|
  }

  /** `addToQueue(song)`: a song whose id is queued already is only selected
      (its first occurrence); otherwise it is appended to both lists. */
  function Added(st: QueueState, song: Song): (r: QueueState)
    ensures HasId(st.queue, song.id) ==>
      r.queue == st.queue && r.originalQueue == st.originalQueue &&
      0 <= r.currentIndex < |r.queue| && r.queue[r.currentIndex].id == song.id &&
      forall j :: 0 <= j < r.currentIndex ==> r.queue[j].id != song.id
    ensures !HasId(st.queue, song.id) ==>
      r.queue == st.queue + [song] && r.originalQueue == st.originalQueue + [song] &&
      r.currentIndex == st.currentIndex
  {
    var existing := IndexOfId(st.queue, song.id);
    if existing != -1 then
      st.(currentIndex := existing)
    else
      st.(queue := st.queue + [song], originalQueue := st.originalQueue + [song])
  }

  /** `addMultipleToQueue(songs)`: the songs whose id is not queued yet, in input
      order (duplicates within `songs` are kept). */
  function Unqueued(st: QueueState, songs: seq<Song>): (r: seq<Song>)
    ensures Seqs.IsSubsequence(r, songs)
    ensures forall i :: 0 <= i < |r| ==> !HasId(st.queue, r[i].id)
    ensures forall x :: multiset(r)[x] == if HasId(st.queue, x.id) then 0 else multiset(songs)[x]
  {
    Seqs.Filter(songs, (s: Song) => !HasId(st.queue, s.id))
  }

  /** `addMultipleToQueue(songs)`: both lists grow by the unqueued songs, in
      input order; the selection does not move. */
  function AddedAll(st: QueueState, songs: seq<Song>): (r: QueueState)
    ensures |r.queue| >= |st.queue| && r.queue[..|st.queue|] == st.queue
    ensures r.queue[|st.queue|..] == Unqueued(st, songs)
    ensures r.originalQueue == st.originalQueue + Unqueued(st, songs)
    ensures r.currentIndex == st.currentIndex
  {
    var added := Unqueued(st, songs);
    assert (st.queue + added)[..|st.queue|] == st.queue;
    st.(queue := st.queue + added, originalQueue := st.originalQueue + added)
  }

  /** The selection after the song at `index` is removed from a queue of
      `newLength` songs: later positions shift down, and removing the selected
      last song selects the new last one. That this keeps the same song
      selected is `RemoveKeepsCurrent`; that removing the selected song
      selects its successor is `RemoveCurrentSelectsNext`. */
  function IndexAfterRemoval(index: int, current: int, newLength: nat): (r: int)
    ensures 0 <= index <= newLength && -1 <= current <= newLength ==> -1 <= r < newLength
    ensures index > current ==> r == current
  {
    if index < current then current - 1
    else if index == current && current >= newLength then newLength - 1
    else current
  }

  /** `removeFromQueue(index)`. */
  function Removed(st: QueueState, index: int): (r: QueueState)
    ensures !(0 <= index < |st.queue|) ==> r == st
    ensures 0 <= index < |st.queue| ==>
      r.queue == Seqs.RemoveAt(st.queue, index) &&
      r.currentIndex == IndexAfterRemoval(index, st.currentIndex, |st.queue| - 1)
    ensures 0 <= index < |st.queue| && !HasId(st.originalQueue, st.queue[index].id) ==>
      r.originalQueue == st.originalQueue
    ensures 0 <= index < |st.queue| && HasId(st.originalQueue, st.queue[index].id) ==>
      r.originalQueue == Seqs.RemoveAt(st.originalQueue, IndexOfId(st.originalQueue, st.queue[index].id))
  {
    if index < 0 || index >= |st.queue| then st
    else
      var newQueue := Seqs.RemoveAt(st.queue, index);
      var k := IndexOfId(st.originalQueue, st.queue[index].id);
      var newOriginal := if k == -1 then st.originalQueue else Seqs.RemoveAt(st.originalQueue, k);
      QueueState(newQueue, newOriginal, IndexAfterRemoval(index, st.currentIndex, |newQueue|))
  }

  /** The selection after moving the song at `from` to `to`: the moved song
      keeps being selected, and the songs in between shift by one. That the
      selected song stays selected under every move is `ReorderKeepsCurrent`. */
  function IndexAfterMove(from: int, to: int, current: int): (r: int)
    ensures from == current ==> r == to
    ensures from != current ==> current - 1 <= r <= current + 1
    ensures from != current && 0 <= from && 0 <= current ==> 0 <= r
  {
    if from == current then to
    else if from < current && to >= current then current - 1
    else if from > current && to <= current then current + 1
    else current
  }

  /** `reorderQueue(from, to)`: the song at `from` is taken out and put back at
      `to`; either index out of range changes nothing. */
  function Reordered(st: QueueState, from: int, to: int): (r: QueueState)
    ensures !(0 <= from < |st.queue| && 0 <= to < |st.queue|) ==> r == st
    ensures 0 <= from < |st.queue| && 0 <= to < |st.queue| ==>
      |r.queue| == |st.queue| && r.queue[to] == st.queue[from] &&
      Seqs.RemoveAt(r.queue, to) == Seqs.RemoveAt(st.queue, from) &&
      r.currentIndex == IndexAfterMove(from, to, st.currentIndex)
    ensures r.originalQueue == st.originalQueue
  {
    if from < 0 || from >= |st.queue| || to < 0 || to >= |st.queue| then st
    else
      var moved := st.queue[from];
      var rest := Seqs.RemoveAt(st.queue, from);
      var newQueue := Seqs.InsertAt(rest, to, moved);
      Seqs.RemoveInserted(rest, to, moved);
      st.(queue := newQueue, currentIndex := IndexAfterMove(from, to, st.currentIndex))
  }

  /** `shuffleQueue` with the selection in range: `r` starts with the selected
      song, holds the same songs, selects position 0, and the original order is
      untouched; a queue of at most one song is left alone. */
  ghost predicate IsShuffleOf(st: QueueState, r: QueueState): (b: bool)
    ensures b ==> |r.queue| == |st.queue| && multiset(r.queue) == multiset(st.queue)
    ensures b ==> r.originalQueue == st.originalQueue
    ensures b && 0 <= st.currentIndex < |st.queue| ==> r.queue[0] == st.queue[st.currentIndex]
  {
    if |st.queue| <= 1 then r == st
    else
      0 <= st.currentIndex < |st.queue| &&
      |r.queue| == |st.queue| && r.queue[0] == st.queue[st.currentIndex] &&
      multiset(r.queue) == multiset(st.queue) &&
      r.originalQueue == st.originalQueue && r.currentIndex == 0
  }

  /** `restoreOriginalQueue`: the queue becomes the original order, and the
      selection follows the selected song's id there (0 when it is missing or
      nothing was selected). */
  function Restored(st: QueueState): (r: QueueState)
    ensures r.queue == st.originalQueue && r.originalQueue == st.originalQueue
    ensures 0 <= st.currentIndex < |st.queue| && HasId(st.originalQueue, st.queue[st.currentIndex].id) ==>
      0 <= r.currentIndex < |r.queue| && r.queue[r.currentIndex].id == st.queue[st.currentIndex].id
    ensures !(0 <= st.currentIndex < |st.queue| && HasId(st.originalQueue, st.queue[st.currentIndex].id)) ==>
      r.currentIndex == 0
  {
    var newIndex :=
      if 0 <= st.currentIndex < |st.queue|
      then IndexOfId(st.originalQueue, st.queue[st.currentIndex].id)
      else -1;
    QueueState(st.originalQueue, st.originalQueue, if newIndex >= 0 then newIndex else 0)
  }

  /** `getNextSong`: the song after the selected one, if the queue has one
      there (a read outside the list, JavaScript's `undefined`, is `None`). */
  function NextSong(st: QueueState): (r: Option<Song>)
    ensures r.Some? <==> -1 <= st.currentIndex < |st.queue| - 1
    ensures r.Some? ==> r.value == st.queue[st.currentIndex + 1]
  {
    if st.currentIndex < |st.queue| - 1 && st.currentIndex + 1 >= 0
    then Some(st.queue[st.currentIndex + 1])
    else None
  }

  /** `getPreviousSong`: the song before the selected one, if there is one. */
  function PreviousSong(st: QueueState): (r: Option<Song>)
    ensures r.Some? <==> 0 < st.currentIndex <= |st.queue|
    ensures r.Some? ==> r.value == st.queue[st.currentIndex - 1]
  {
    if st.currentIndex > 0 && st.currentIndex - 1 < |st.queue|
    then Some(st.queue[st.currentIndex - 1])
    else None
  }

  /** `playNext(song)`: the song is placed right after the selection. A queued
      song is moved there (the original order and the selection stay as they
      are); a new one is inserted there and appended to the original order. */
  function PlacedNext(st: QueueState, song: Song): (r: QueueState)
    ensures r.currentIndex == st.currentIndex
    ensures HasId(st.queue, song.id) ==>
      var existing := IndexOfId(st.queue, song.id);
      var at := if existing < st.currentIndex then st.currentIndex else st.currentIndex + 1;
      r.queue == Seqs.InsertAt(Seqs.RemoveAt(st.queue, existing), at, song) &&
      r.originalQueue == st.originalQueue
    ensures !HasId(st.queue, song.id) ==>
      r.queue == Seqs.InsertAt(st.queue, st.currentIndex + 1, song) &&
      r.originalQueue == st.originalQueue + [song]
  {
    var existing := IndexOfId(st.queue, song.id);
    if existing != -1 then
      var at := if existing < st.currentIndex then st.currentIndex else st.currentIndex + 1;
      st.(queue := Seqs.InsertAt(Seqs.RemoveAt(st.queue, existing), at, song))
    else
      st.(queue := Seqs.InsertAt(st.queue, st.currentIndex + 1, song),
          originalQueue := st.originalQueue + [song])
  }

  /** The Fisher-Yates pass of `shuffleQueue`: for `i` from the last position
      down to 1, swap `a[i]` with `a[j]` for a random `j` in `[0, i]`.
      `rolls[i]` stands for the draw made at position `i`; it is reduced to
      that range (a missing roll counts as 0). The array keeps its songs. */
  method FisherYates(a: array<Song>, rolls: seq<nat>)
    modifies a
    ensures multiset(a[..]) == multiset(old(a[..]))
  {
    var i := a.Length - 1;
    while i > 0
      invariant i < a.Length
      invariant multiset(a[..]) == multiset(old(a[..]))
    {
      var j := if i < |rolls| then rolls[i] % (i + 1) else 0;
      a[i], a[j] := a[j], a[i];
      i := i - 1;
    }
  }

  /** The store itself: three fields that every action overwrites. */
  class QueueStore {
    var queue: seq<Song>
    var originalQueue: seq<Song>
    var currentIndex: int

    function State(): QueueState
      reads this
    {
      QueueState(queue, originalQueue, currentIndex)
    }

    constructor()
      ensures State() == Empty
    {
      queue, originalQueue, currentIndex := [], [], -1;
    }

    method AddToQueue(song: Song)
      modifies this
      ensures State() == Added(old(State()), song)
    {
      var existingIndex := IndexOfId(queue, song.id);
      if existingIndex != -1 {
        currentIndex := existingIndex;
        return;
      }
      queue, originalQueue := queue + [song], originalQueue + [song];
    }

    method AddMultipleToQueue(songs: seq<Song>)
      modifies this
      ensures State() == AddedAll(old(State()), songs)
    {
      var newSongs := Unqueued(State(), songs);
      queue, originalQueue := queue + newSongs, originalQueue + newSongs;
    }

    method RemoveFromQueue(index: int)
      modifies this
      ensures State() == Removed(old(State()), index)
    {
      if index < 0 || index >= |queue| {
        return;
      }
      var newQueue := Seqs.RemoveAt(queue, index);
      var newOriginalQueue := originalQueue;
      var songToRemove := queue[index];
      var originalIndex := IndexOfId(newOriginalQueue, songToRemove.id);
      if originalIndex != -1 {
        newOriginalQueue := Seqs.RemoveAt(newOriginalQueue, originalIndex);
      }
      var newCurrentIndex := currentIndex;
      if index < currentIndex {
        newCurrentIndex := currentIndex - 1;
      } else if index == currentIndex && currentIndex >= |newQueue| {
        newCurrentIndex := |newQueue| - 1;
      }
      queue, originalQueue, currentIndex := newQueue, newOriginalQueue, newCurrentIndex;
    }

    method ClearQueue()
      modifies this
      ensures State() == Empty
    {
      queue, originalQueue, currentIndex := [], [], -1;
    }

    /** `setQueue(songs, startIndex = 0)`: the start index is not checked. */
    method SetQueue(songs: seq<Song>, startIndex: int)
      modifies this
      ensures State() == QueueState(songs, songs, startIndex)
      ensures SameIds(State())
    {
      queue, originalQueue, currentIndex := songs, songs, startIndex;
    }

    method SetCurrentIndex(index: int)
      modifies this
      ensures State() == old(State()).(currentIndex := index)
    {
      currentIndex := index;
    }

    method ReorderQueue(fromIndex: int, toIndex: int)
      modifies this
      ensures State() == Reordered(old(State()), fromIndex, toIndex)
    {
      if fromIndex < 0 || fromIndex >= |queue| {
        return;
      }
      if toIndex < 0 || toIndex >= |queue| {
        return;
      }
      var movedItem := queue[fromIndex];
      var newQueue := Seqs.RemoveAt(queue, fromIndex);
      newQueue := Seqs.InsertAt(newQueue, toIndex, movedItem);
      var newCurrentIndex := currentIndex;
      if fromIndex == currentIndex {
        newCurrentIndex := toIndex;
      } else if fromIndex < currentIndex && toIndex >= currentIndex {
        newCurrentIndex := currentIndex - 1;
      } else if fromIndex > currentIndex && toIndex <= currentIndex {
        newCurrentIndex := currentIndex + 1;
      }
      queue, currentIndex := newQueue, newCurrentIndex;
    }

    /** `shuffleQueue`: the selected song goes first and the other songs
        follow in the order a Fisher-Yates pass leaves them. */
    method ShuffleQueue(rolls: seq<nat>)
      requires |queue| <= 1 || 0 <= currentIndex < |queue|
      modifies this
      ensures IsShuffleOf(old(State()), State())
    {
      if |queue| <= 1 {
        return;
      }
      var currentSong := queue[currentIndex];
      var otherSongs := Seqs.RemoveAt(queue, currentIndex);
      Seqs.RemoveAtMultiset(queue, currentIndex);
      var a := new Song[|otherSongs|](k requires 0 <= k < |otherSongs| => otherSongs[k]);
      assert a[..] == otherSongs;
      FisherYates(a, rolls);
      var shuffledQueue := [currentSong] + a[..];
      assert multiset(shuffledQueue) == multiset(queue);
      queue, currentIndex := shuffledQueue, 0;
    }

    method RestoreOriginalQueue()
      modifies this
      ensures State() == Restored(old(State()))
    {
      var newIndex := -1;
      if 0 <= currentIndex < |queue| {
        newIndex := IndexOfId(originalQueue, queue[currentIndex].id);
      }
      queue, currentIndex := originalQueue, if newIndex >= 0 then newIndex else 0;
    }

    /** `playFromQueue(index)`: selects and returns the song at `index`, or
        returns `None` and changes nothing when there is none. */
    method PlayFromQueue(index: int) returns (song: Option<Song>)
      modifies this
      ensures !(0 <= index < |old(queue)|) ==> song.None? && State() == old(State())
      ensures 0 <= index < |old(queue)| ==>
        song == Some(old(queue)[index]) && State() == old(State()).(currentIndex := index)
    {
      if index < 0 || index >= |queue| {
        return None;
      }
      currentIndex := index;
      return Some(queue[index]);
    }

    method PlayNext(song: Song)
      modifies this
      ensures State() == PlacedNext(old(State()), song)
    {
      var existingIndex := IndexOfId(queue, song.id);
      if existingIndex != -1 {
        var newQueue := Seqs.RemoveAt(queue, existingIndex);
        var insertIndex := if existingIndex < currentIndex then currentIndex else currentIndex + 1;
        newQueue := Seqs.InsertAt(newQueue, insertIndex, song);
        queue := newQueue;
        return;
      }
      var newQueue := Seqs.InsertAt(queue, currentIndex + 1, song);
      queue, originalQueue := newQueue, originalQueue + [song];
    }
  }

  /** Adding a song keeps the ids of the queue and of the original order in
      step. */
  lemma AddKeepsIds(st: QueueState, song: Song)
    requires SameIds(st)
    ensures SameIds(Added(st, song))
  {
    if !HasId(st.queue, song.id) {
      IdsAppend(st.queue, [song]);
      IdsAppend(st.originalQueue, [song]);
    }
  }

  lemma AddAllKeepsIds(st: QueueState, songs: seq<Song>)
    requires SameIds(st)
    ensures SameIds(AddedAll(st, songs))
  {
    var added := Unqueued(st, songs);
    IdsAppend(st.queue, added);
    IdsAppend(st.originalQueue, added);
  }

  /** Removing a song removes its id from both lists: when the ids are in
      step, the original order always holds the removed song's id. */
  lemma RemoveKeepsIds(st: QueueState, index: int)
    requires SameIds(st)
    ensures SameIds(Removed(st, index))
  {
    if 0 <= index < |st.queue| {
      var id := st.queue[index].id;
      IdsRemoveAt(st.queue, index);
      Seqs.RemoveAtMultiset(Ids(st.queue), index);
      assert Ids(st.queue)[index] == id;
      assert id in multiset(Ids(st.originalQueue));
      var j :| 0 <= j < |Ids(st.originalQueue)| && Ids(st.originalQueue)[j] == id;
      assert st.originalQueue[j].id == id;
      var k := IndexOfId(st.originalQueue, id);
      IdsRemoveAt(st.originalQueue, k);
      Seqs.RemoveAtMultiset(Ids(st.originalQueue), k);
    }
  }

  lemma ReorderKeepsIds(st: QueueState, from: int, to: int)
    requires SameIds(st)
    ensures SameIds(Reordered(st, from, to))
  {
    if 0 <= from < |st.queue| && 0 <= to < |st.queue| {
      MoveKeepsIds(st.queue, from, to, st.queue[from]);
      assert Reordered(st, from, to).queue ==
        Seqs.InsertAt(Seqs.RemoveAt(st.queue, from), to, st.queue[from]);
    }
  }

  /** Placing a song next keeps the ids in step: a queued song is replaced by
      one with the same id, a new one is added to both lists. */
  lemma PlaceNextKeepsIds(st: QueueState, song: Song)
    requires SameIds(st)
    ensures SameIds(PlacedNext(st, song))
  {
    var existing := IndexOfId(st.queue, song.id);
    var r := PlacedNext(st, song);
    if existing != -1 {
      var at := if existing < st.currentIndex then st.currentIndex else st.currentIndex + 1;
      MoveKeepsIds(st.queue, existing, at, song);
    } else {
      InsertKeepsIds(st.queue, st.currentIndex + 1, song);
      IdsAppend(st.originalQueue, [song]);
      assert Ids([song]) == [song.id];
    }
  }

  /** Taking out a song and inserting one with the same id keeps the ids. */
  lemma MoveKeepsIds(q: seq<Song>, existing: nat, at: int, song: Song)
    requires existing < |q| && q[existing].id == song.id
    ensures multiset(Ids(Seqs.InsertAt(Seqs.RemoveAt(q, existing), at, song))) == multiset(Ids(q))
  {
    var ids := Ids(q);
    var rest := Seqs.RemoveAt(q, existing);
    IdsRemoveAt(q, existing);
    Seqs.RemoveAtMultiset(ids, existing);
    assert multiset(Ids(rest)) + multiset{song.id} == multiset(ids) by {
      assert ids[existing] == song.id;
      assert song.id in multiset(ids);
    }
    InsertKeepsIds(rest, at, song);
  }

  /** Inserting a song adds its id once. */
  lemma InsertKeepsIds(q: seq<Song>, at: int, song: Song)
    ensures multiset(Ids(Seqs.InsertAt(q, at, song))) == multiset(Ids(q)) + multiset{song.id}
  {
    IdsInsertAt(q, at, song);
    Seqs.InsertAtMultiset(Ids(q), at, song.id);
  }

  /** A shuffle keeps the ids in step. */
  lemma ShuffleKeepsIds(st: QueueState, r: QueueState)
    requires IsShuffleOf(st, r) && SameIds(st)
    ensures SameIds(r)
  {
    if |st.queue| > 1 {
      PermutationKeepsIds(r.queue, st.queue);
    }
  }

  /** Restoring puts the ids in step whatever they were. */
  lemma RestoreAlignsIds(st: QueueState)
    ensures SameIds(Restored(st))
  {
  }

  /** The selection stays -1 or a queue position under every action except
      `setQueue`, `setCurrentIndex` and the restoring of an empty original
      order. */
  lemma ActionsKeepBounds(st: QueueState, song: Song, songs: seq<Song>, index: int, from: int, to: int)
    requires Bounded(st)
    ensures Bounded(Added(st, song)) && Bounded(AddedAll(st, songs))
    ensures Bounded(Removed(st, index)) && Bounded(Reordered(st, from, to))
    ensures Bounded(PlacedNext(st, song))
    ensures st.originalQueue != [] ==> Bounded(Restored(st))
  {
    AddedBounded(st, song);
    AddedAllBounded(st, songs);
    RemovedBounded(st, index);
    ReorderedBounded(st, from, to);
    PlacedNextBounded(st, song);
  }

  lemma AddedBounded(st: QueueState, song: Song)
    requires Bounded(st)
    ensures Bounded(Added(st, song))
  {
  }

  lemma AddedAllBounded(st: QueueState, songs: seq<Song>)
    requires Bounded(st)
    ensures Bounded(AddedAll(st, songs))
  {
  }

  lemma RemovedBounded(st: QueueState, index: int)
    requires Bounded(st)
    ensures Bounded(Removed(st, index))
  {
  }

  lemma ReorderedBounded(st: QueueState, from: int, to: int)
    requires Bounded(st)
    ensures Bounded(Reordered(st, from, to))
  {
  }

  lemma PlacedNextBounded(st: QueueState, song: Song)
    requires Bounded(st)
    ensures Bounded(PlacedNext(st, song))
  {
  }

  /** Moving a song keeps the selected song selected. */
  lemma ReorderKeepsCurrent(st: QueueState, from: int, to: int)
    requires 0 <= st.currentIndex < |st.queue|
    ensures var r := Reordered(st, from, to);
      0 <= r.currentIndex < |r.queue| && r.queue[r.currentIndex] == st.queue[st.currentIndex]
  {
    if 0 <= from < |st.queue| && 0 <= to < |st.queue| {
      MoveTracks(st.queue, from, to, st.currentIndex);
      assert Reordered(st, from, to).queue ==
        Seqs.InsertAt(Seqs.RemoveAt(st.queue, from), to, st.queue[from]);
    }
  }

  /** After moving the element at `from` to `to`, the element that was at `c`
      sits at `IndexAfterMove(from, to, c)`. */
  lemma MoveTracks<T>(s: seq<T>, from: nat, to: nat, c: nat)
    requires from < |s| && to < |s| && c < |s|
    ensures var r := Seqs.InsertAt(Seqs.RemoveAt(s, from), to, s[from]);
      0 <= IndexAfterMove(from, to, c) < |r| && r[IndexAfterMove(from, to, c)] == s[c]
  {
    var rest := Seqs.RemoveAt(s, from);
    assert Seqs.SpliceStart(to, |rest|) == to;
    if from < c {
      assert rest[c - 1] == s[c];
    } else if from > c {
      assert rest[c] == s[c];
    }
  }

  /** `[A, B, C, D]` with C selected, after moving A to the end, is
      `[B, C, D, A]` with C (now at 1) still selected. */
  lemma ReorderExample(a: Song, b: Song, c: Song, d: Song, original: seq<Song>)
    ensures Reordered(QueueState([a, b, c, d], original, 2), 0, 3) == QueueState([b, c, d, a], original, 1)
  {
    var r := Reordered(QueueState([a, b, c, d], original, 2), 0, 3);
    assert Seqs.RemoveAt([a, b, c, d], 0) == [b, c, d];
    assert Seqs.InsertAt([b, c, d], 3, a) == [b, c, d, a];
  }

  /** Removing another song keeps the selected song selected. */
  lemma RemoveKeepsCurrent(st: QueueState, index: int)
    requires 0 <= st.currentIndex < |st.queue| && 0 <= index < |st.queue| && index != st.currentIndex
    ensures var r := Removed(st, index);
      0 <= r.currentIndex < |r.queue| && r.queue[r.currentIndex] == st.queue[st.currentIndex]
  {
  }

  /** Removing the selected song selects the song that followed it, or the
      new last song when it was last; an emptied queue selects -1. */
  lemma RemoveCurrentSelectsNext(st: QueueState)
    requires 0 <= st.currentIndex < |st.queue|
    ensures var r := Removed(st, st.currentIndex);
      (st.currentIndex < |st.queue| - 1 ==>
        r.currentIndex == st.currentIndex && r.queue[r.currentIndex] == st.queue[st.currentIndex + 1]) &&
      (st.currentIndex == |st.queue| - 1 ==> r.currentIndex == |st.queue| - 2)
  {
  }

  /** Restoring twice is restoring once. */
  lemma RestoreIdempotent(st: QueueState)
    ensures Restored(Restored(st)) == Restored(st)
  {
    var r := Restored(st);
    if 0 <= r.currentIndex < |r.queue| {
      var id := r.queue[r.currentIndex].id;
      assert HasId(r.originalQueue, id);
      var k := IndexOfId(r.originalQueue, id);
      assert k == r.currentIndex;
    }
  }

  /** With distinct ids, shuffling a queue that is in its original order and
      then restoring it gives back the same state. */
  lemma ShuffleThenRestore(st: QueueState, shuffled: QueueState)
    requires st.queue == st.originalQueue && UniqueIds(st.queue)
    requires 0 <= st.currentIndex < |st.queue|
    requires IsShuffleOf(st, shuffled)
    ensures Restored(shuffled) == st
  {
    var id := st.queue[st.currentIndex].id;
    if |st.queue| > 1 {
      assert shuffled.queue[shuffled.currentIndex].id == id;
    }
    assert HasId(st.originalQueue, id);
    var k := IndexOfId(st.originalQueue, id);
    assert k == st.currentIndex;
  }

  /** Restoring an empty queue selects position 0, outside the empty queue. */
  lemma RestoreEmptySelectsZero()
    ensures !Bounded(Restored(Empty))
  {
  }

  /** `playNext` of a queued song that sits before the selection moves it to
      the selected position itself: the selection then names the moved song,
      not the song that was selected before. */
  lemma PlayNextEarlierSongTakesSelection(st: QueueState, song: Song)
    requires 0 <= st.currentIndex < |st.queue|
    requires 0 <= IndexOfId(st.queue, song.id) < st.currentIndex
    ensures var r := PlacedNext(st, song);
      r.currentIndex == st.currentIndex && r.queue[r.currentIndex] == song
  {
  }

  /** Selecting the next song and then asking for the previous one gives back
      the song that was selected. */
  lemma NextThenPrevious(st: QueueState)
    requires 0 <= st.currentIndex && NextSong(st).Some?
    ensures PreviousSong(st.(currentIndex := st.currentIndex + 1)) == Some(st.queue[st.currentIndex])
  {
  }
}

=== FILE: recently_played.dfy ===
/** The recently played list (src/store/recentlyPlayedStore.ts): the last few
    songs played, newest first, each id at most once. */
module Recent {
  import opened Types
  import Seqs

  const MAX_RECENTLY_PLAYED := 5

  /** `addToRecentlyPlayed(song)`: the song goes first, followed by the other
      songs without its id, the oldest dropped beyond the cap. */
  function WithPlayed(recent: seq<Song>, song: Song): (r: seq<Song>)
    ensures 1 <= |r| <= MAX_RECENTLY_PLAYED && r[0] == song
    ensures r[1..] == Seqs.Take(WithoutId(recent, song.id), MAX_RECENTLY_PLAYED - 1)
    ensures Seqs.IsSubsequence(r[1..], recent)
  {
    var filtered := WithoutId(recent, song.id);
    var updated := Seqs.Take([song] + filtered, MAX_RECENTLY_PLAYED);
    assert updated[1..] == Seqs.Take(filtered, MAX_RECENTLY_PLAYED - 1);
    Seqs.SubsequencePrefix(filtered, recent, |updated| - 1);
    updated
  }

  /** After a play, the played song's id occurs only at the head. */
  lemma PlayedOnlyAtHead(recent: seq<Song>, song: Song)
    ensures var r := WithPlayed(recent, song);
      forall i :: 1 <= i < |r| ==> r[i].id != song.id
  {
    var r := WithPlayed(recent, song);
    var filtered := WithoutId(recent, song.id);
    forall i | 1 <= i < |r| ensures r[i].id != song.id {
      assert r[i] == filtered[i - 1];
    }
  }

  /** Playing a song keeps the ids in the list distinct. */
  lemma PlayedKeepsIdsUnique(recent: seq<Song>, song: Song)
    requires UniqueIds(recent)
    ensures UniqueIds(WithPlayed(recent, song))
  {
    var r := WithPlayed(recent, song);
    UniqueIdsSubsequence(r[1..], recent);
    PlayedOnlyAtHead(recent, song);
    forall i, j | 0 <= i < j < |r| ensures r[i].id != r[j].id {
      if i > 0 {
        assert r[i] == r[1..][i - 1] && r[j] == r[1..][j - 1];
      }
    }
  }

  /** Playing the same song twice in a row lists it once. */
  lemma PlayedTwice(recent: seq<Song>, song: Song)
    ensures WithPlayed(WithPlayed(recent, song), song) == WithPlayed(recent, song)
  {
    var r := WithPlayed(recent, song);
    PlayedOnlyAtHead(recent, song);
    WithoutIdDropsHead(r, song.id);
    assert [song] + r[1..] == r;
  }

  /** A list whose head alone has `id` loses exactly its head. */
  lemma WithoutIdDropsHead(r: seq<Song>, id: string)
    requires r != [] && r[0].id == id
    requires forall i :: 1 <= i < |r| ==> r[i].id != id
    ensures WithoutId(r, id) == r[1..]
  {
    var keep := (x: Song) => x.id != id;
    assert r == [r[0]] + r[1..];
    Seqs.FilterConcat([r[0]], r[1..], keep);
    assert Seqs.Filter([r[0]], keep) == [] by {
      assert [r[0]][1..] == [];
    }
    Seqs.FilterAllKept(r[1..], keep);
  }

  class RecentlyPlayedStore {
    var recentlyPlayed: seq<Song>

    constructor()
      ensures recentlyPlayed == []
    {
      recentlyPlayed := [];
    }

    method AddToRecentlyPlayed(song: Song)
      modifies this
      ensures recentlyPlayed == WithPlayed(old(recentlyPlayed), song)
    {
      var filtered := WithoutId(recentlyPlayed, song.id);
      recentlyPlayed := Seqs.Take([song] + filtered, MAX_RECENTLY_PLAYED);
    }

    method ClearRecentlyPlayed()
      modifies this
      ensures recentlyPlayed == []
    {
      recentlyPlayed := [];
    }
  }
}

=== FILE: search_store.dfy ===
/** The search store (src/store/searchStore.ts): the results and query of the
    current search, and the list of recent searches, newest first, kept
    without case-insensitive duplicates and capped in length. Only the list
    of recent searches is persisted. */
module Search {
  import opened Types
  import opened Text
  import Seqs

  const MAX_RECENT_SEARCHES := 10

  /** The entries of `recent` that are not `key` once lower-cased, in order. */
  function Unlike(recent: seq<string>, key: string): (r: seq<string>)
    ensures Seqs.IsSubsequence(r, recent)
    ensures forall i :: 0 <= i < |r| ==> Lower(r[i]) != key
    ensures forall x :: multiset(r)[x] == if Lower(x) != key then multiset(recent)[x] else 0
  {
    Seqs.Filter(recent, (s: string) => Lower(s) != key)
  }

  /** `addRecentSearch(query)`: a blank query changes nothing; otherwise the
      trimmed query goes first, as typed, followed by the older entries that
      differ from it ignoring case, the oldest dropped beyond the cap. */
  function WithRecentSearch(recent: seq<string>, query: string): (r: seq<string>)
    ensures Trim(query) == [] ==> r == recent
    ensures Trim(query) != [] ==>
      1 <= |r| <= MAX_RECENT_SEARCHES && r[0] == Trim(query) &&
      r[1..] == Seqs.Take(Unlike(recent, Lower(Trim(query))), MAX_RECENT_SEARCHES - 1)
  {
    var trimmedQuery := Lower(Trim(query));
    if trimmedQuery == [] then recent
    else
      var filtered := Unlike(recent, trimmedQuery);
      var updated := Seqs.Take([Trim(query)] + filtered, MAX_RECENT_SEARCHES);
      assert updated[1..] == Seqs.Take(filtered, MAX_RECENT_SEARCHES - 1);
      updated
  }

  /** After a search, no older entry equals the new one ignoring case, and
      the older entries that stay keep their order. */
  lemma RecentSearchShape(recent: seq<string>, query: string)
    requires Trim(query) != []
    ensures var r := WithRecentSearch(recent, query);
      (forall i :: 1 <= i < |r| ==> Lower(r[i]) != Lower(Trim(query))) &&
      Seqs.IsSubsequence(r[1..], recent)
  {
    var r := WithRecentSearch(recent, query);
    var filtered := Unlike(recent, Lower(Trim(query)));
    Seqs.SubsequencePrefix(filtered, recent, |r| - 1);
  }

  /** `removeRecentSearch(query)`: every entry equal to `query` ignoring case
      goes; the others stay, in order. */
  function WithoutRecentSearch(recent: seq<string>, query: string): (r: seq<string>)
    ensures Seqs.IsSubsequence(r, recent)
    ensures forall i :: 0 <= i < |r| ==> Lower(r[i]) != Lower(query)
    ensures forall x :: multiset(r)[x] == if Lower(x) != Lower(query) then multiset(recent)[x] else 0
  {
    Unlike(recent, Lower(query))
  }

  /** Searching for the same text twice in a row lists it once. */
  lemma RecentSearchTwice(recent: seq<string>, query: string)
    ensures WithRecentSearch(WithRecentSearch(recent, query), query) == WithRecentSearch(recent, query)
  {
    var r := WithRecentSearch(recent, query);
    if Trim(query) != [] {
      var key := Lower(Trim(query));
      UnlikeDropsHead(r, key);
      assert [Trim(query)] + r[1..] == r;
      assert WithRecentSearch(r, query) == Seqs.Take([Trim(query)] + Unlike(r, key), MAX_RECENT_SEARCHES);
    }
  }

  /** A list whose head alone matches `key` loses exactly its head. */
  lemma UnlikeDropsHead(r: seq<string>, key: string)
    requires r != [] && Lower(r[0]) == key
    requires forall i :: 1 <= i < |r| ==> Lower(r[i]) != key
    ensures Unlike(r, key) == r[1..]
  {
    var keep := (s: string) => Lower(s) != key;
    assert r == [r[0]] + r[1..];
    Seqs.FilterConcat([r[0]], r[1..], keep);
    assert Seqs.Filter([r[0]], keep) == [] by {
      assert [r[0]][1..] == [];
    }
    Seqs.FilterAllKept(r[1..], keep);
  }

  /** The cap holds after every change of the list. */
  lemma RecentSearchesCapped(recent: seq<string>, query: string)
    requires |recent| <= MAX_RECENT_SEARCHES
    ensures |WithRecentSearch(recent, query)| <= MAX_RECENT_SEARCHES
    ensures |WithoutRecentSearch(recent, query)| <= MAX_RECENT_SEARCHES
  {
    var r := WithoutRecentSearch(recent, query);
    assert |multiset(r)| <= |multiset(recent)| by {
      assert multiset(r) <= multiset(recent);
    }
  }

  class SearchStore {
    var recentSearches: seq<string>
    var searchResults: seq<Song>
    var isSearching: bool
    var searchQuery: string

    constructor()
      ensures recentSearches == [] && searchResults == [] && !isSearching && searchQuery == ""
    {
      recentSearches, searchResults, isSearching, searchQuery := [], [], false, "";
    }

    method AddRecentSearch(query: string)
      modifies this
      ensures recentSearches == WithRecentSearch(old(recentSearches), query)
      ensures searchResults == old(searchResults) && isSearching == old(isSearching)
      ensures searchQuery == old(searchQuery)
    {
      var trimmedQuery := Lower(Trim(query));
      if trimmedQuery == [] {
        return;
      }
      var filtered := Unlike(recentSearches, trimmedQuery);
      recentSearches := Seqs.Take([Trim(query)] + filtered, MAX_RECENT_SEARCHES);
    }

    method RemoveRecentSearch(query: string)
      modifies this
      ensures recentSearches == WithoutRecentSearch(old(recentSearches), query)
      ensures searchResults == old(searchResults) && isSearching == old(isSearching)
      ensures searchQuery == old(searchQuery)
    {
      recentSearches := Unlike(recentSearches, Lower(query));
    }

    method ClearRecentSearches()
      modifies this
      ensures recentSearches == []
      ensures searchResults == old(searchResults) && isSearching == old(isSearching)
      ensures searchQuery == old(searchQuery)
    {
      recentSearches := [];
    }

    method SetSearchResults(results: seq<Song>)
      modifies this
      ensures searchResults == results
      ensures recentSearches == old(recentSearches) && isSearching == old(isSearching)
      ensures searchQuery == old(searchQuery)
    {
      searchResults := results;
    }

    method SetIsSearching(isSearching: bool)
      modifies this
      ensures this.isSearching == isSearching
      ensures recentSearches == old(recentSearches) && searchResults == old(searchResults)
      ensures searchQuery == old(searchQuery)
    {
      this.isSearching := isSearching;
    }

    method SetSearchQuery(query: string)
      modifies this
      ensures searchQuery == query
      ensures recentSearches == old(recentSearches) && searchResults == old(searchResults)
      ensures isSearching == old(isSearching)
    {
      searchQuery := query;
    }

    method ClearSearchResults()
      modifies this
      ensures searchResults == [] && searchQuery == ""
      ensures recentSearches == old(recentSearches) && isSearching == old(isSearching)
    {
      searchResults, searchQuery := [], "";
    }
  }
}

=== FILE: seqs.dfy ===
/** Sequence primitives with the semantics of the JavaScript array methods the
    stores use: `splice` (with its clamping of the start position), `filter`,
    and `slice(0, n)`. */
module Seqs {

  /** The position at which `splice(start, …)` acts on an array of length `len`:
      a negative start counts from the end, and both ends are clamped. */
  function SpliceStart(start: int, len: nat): (p: nat)
    ensures p <= len
    ensures 0 <= start <= len ==> p == start
    ensures start > len ==> p == len
    ensures start < 0 ==> p == if len + start < 0 then 0 else len + start
  {
    if start < 0 then (if len + start < 0 then 0 else len + start)
    else if start > len then len
    else start
  }

  /** `a.splice(i, 1)` for an index inside the array. */
  function RemoveAt<T>(s: seq<T>, i: nat): (r: seq<T>)
    requires i < |s|
    ensures |r| == |s| - 1
    ensures forall j :: 0 <= j < i ==> r[j] == s[j]
    ensures forall j :: i <= j < |r| ==> r[j] == s[j + 1]
  {
    s[..i] + s[i + 1..]
  }

  /** Removing an element removes one occurrence of it. */
  lemma RemoveAtMultiset<T>(s: seq<T>, i: nat)
    requires i < |s|
    ensures multiset(RemoveAt(s, i)) == multiset(s) - multiset{s[i]}
  {
    assert s == s[..i] + [s[i]] + s[i + 1..];
  }

  /** `a.splice(start, 0, x)`: inserts `x` at the clamped position. */
  function InsertAt<T>(s: seq<T>, start: int, x: T): (r: seq<T>)
    ensures |r| == |s| + 1
    ensures r[SpliceStart(start, |s|)] == x
    ensures forall j :: 0 <= j < SpliceStart(start, |s|) ==> r[j] == s[j]
    ensures forall j :: SpliceStart(start, |s|) < j < |r| ==> r[j] == s[j - 1]
  {
    var p := SpliceStart(start, |s|);
    s[..p] + [x] + s[p..]
  }

  /** Inserting an element adds one occurrence of it. */
  lemma InsertAtMultiset<T>(s: seq<T>, start: int, x: T)
    ensures multiset(InsertAt(s, start, x)) == multiset(s) + multiset{x}
  {
    var p := SpliceStart(start, |s|);
    assert s == s[..p] + s[p..];
  }

  /** Taking out what was just inserted gives back the original. */
  lemma RemoveInserted<T>(s: seq<T>, start: int, x: T)
    ensures RemoveAt(InsertAt(s, start, x), SpliceStart(start, |s|)) == s
  {
  }

  /** `a.slice(0, n)`. */
  function Take<T>(s: seq<T>, n: nat): (r: seq<T>)
    ensures |r| <= n && |r| <= |s|
    ensures |s| <= n ==> r == s
    ensures r == s[..|r|]
  {
    if |s| <= n then s else s[..n]
  }

  /** `r` can be obtained from `s` by deleting elements: order is kept. */
  predicate IsSubsequence<T(==)>(r: seq<T>, s: seq<T>)
    decreases |s|
  {
    r == [] || (s != [] && if r[0] == s[0] then IsSubsequence(r[1..], s[1..]) else IsSubsequence(r, s[1..]))
  }

  /** `s.filter(keep)`: exactly the kept elements, each as often as in `s`, in
      their original order. */
  function Filter<T(==,!new)>(s: seq<T>, keep: T -> bool): (r: seq<T>)
    ensures |r| <= |s|
    ensures forall i :: 0 <= i < |r| ==> keep(r[i])
    ensures forall x :: multiset(r)[x] == if keep(x) then multiset(s)[x] else 0
    ensures IsSubsequence(r, s)
  {
    if s == [] then []
    else
      var rest := Filter(s[1..], keep);
      assert s == [s[0]] + s[1..];
      if keep(s[0]) then
        assert ([s[0]] + rest)[1..] == rest;
        [s[0]] + rest
      else
        assert rest != [] ==> rest[0] != s[0];
        rest
  }

  /** One step of `filter`: the head, if kept, followed by the filtered tail. */
  lemma FilterUnfold<T(!new)>(s: seq<T>, keep: T -> bool)
    requires s != []
    ensures Filter(s, keep) == (if keep(s[0]) then [s[0]] else []) + Filter(s[1..], keep)
  {
  }

  lemma {:induction false} FilterAllKept<T(!new)>(s: seq<T>, keep: T -> bool)
    requires forall i :: 0 <= i < |s| ==> keep(s[i])
    ensures Filter(s, keep) == s
  {
    if s != [] {
      FilterAllKept(s[1..], keep);
    }
  }

  lemma {:induction false} FilterConcat<T(!new)>(a: seq<T>, b: seq<T>, keep: T -> bool)
    ensures Filter(a + b, keep) == Filter(a, keep) + Filter(b, keep)
  {
    if a == [] {
      assert a + b == b;
    } else {
      assert (a + b)[1..] == a[1..] + b;
      FilterConcat(a[1..], b, keep);
    }
  }

  /** Appending an element the filter drops to a list it keeps whole gives
      back that list. */
  lemma FilterDropsAppended<T(!new)>(s: seq<T>, x: T, keep: T -> bool)
    requires forall i :: 0 <= i < |s| ==> keep(s[i])
    requires !keep(x)
    ensures Filter(s + [x], keep) == s
  {
    FilterConcat(s, [x], keep);
    FilterAllKept(s, keep);
    FilterUnfold([x], keep);
    assert [x][1..] == [];
  }

  /** A prefix of a subsequence is a subsequence. */
  lemma {:induction false} SubsequencePrefix<T>(r: seq<T>, s: seq<T>, n: nat)
    requires IsSubsequence(r, s)
    requires n <= |r|
    ensures IsSubsequence(r[..n], s)
    decreases |s|
  {
    if n > 0 {
      if r[0] == s[0] {
        SubsequencePrefix(r[1..], s[1..], n - 1);
        assert r[..n][1..] == r[1..][..n - 1];
      } else {
        SubsequencePrefix(r, s[1..], n);
      }
    }
  }

  /** Every element of a subsequence is an element of the sequence. */
  lemma {:induction false} SubsequenceElements<T>(r: seq<T>, s: seq<T>)
    requires IsSubsequence(r, s)
    ensures forall i :: 0 <= i < |r| ==> r[i] in s
    decreases |s|
  {
    if r != [] {
      if r[0] == s[0] {
        SubsequenceElements(r[1..], s[1..]);
        assert forall i :: 1 <= i < |r| ==> r[i] == r[1..][i - 1];
      } else {
        SubsequenceElements(r, s[1..]);
      }
    }
  }
}

=== FILE: text.dfy ===
/** The string operations the stores and helpers rely on, restricted to ASCII:
    `toLowerCase`, `trim`, decimal rendering of integers (`toString`),
    `padStart(2, '0')` and `parseInt(s, 10)`. */
module Text {
  import opened Wrappers

  predicate IsDigit(c: char) { '0' <= c <= '9' }

  /** The ASCII whitespace `trim` and `parseInt` skip: space, tab, line feed,
      vertical tab, form feed, carriage return. */
  predicate IsSpace(c: char) { c == ' ' || '\t' <= c <= '\r' }

  predicate AllDigits(s: string) { forall i :: 0 <= i < |s| ==> IsDigit(s[i]) }

  function LowerChar(c: char): (r: char)
    ensures 'A' <= c <= 'Z' ==> 'a' <= r <= 'z' && r as int - c as int == 32
    ensures !('A' <= c <= 'Z') ==> r == c
  {
    if 'A' <= c <= 'Z' then (c as int + 32) as char else c
  }

  /** ASCII `toLowerCase`. */
  function Lower(s: string): (r: string)
    ensures |r| == |s|
    ensures forall i :: 0 <= i < |s| ==> r[i] == LowerChar(s[i])
  {
    seq(|s|, i requires 0 <= i < |s| => LowerChar(s[i]))
  }

  lemma LowerIdempotent(s: string)
    ensures Lower(Lower(s)) == Lower(s)
  {
  }

  /** The number of leading whitespace characters. */
  function LeadingSpaces(s: string): (n: nat)
    ensures n <= |s|
    ensures forall i :: 0 <= i < n ==> IsSpace(s[i])
    ensures n < |s| ==> !IsSpace(s[n])
  {
    if s == [] || !IsSpace(s[0]) then 0 else 1 + LeadingSpaces(s[1..])
  }

  /** The length of `s` without its trailing whitespace. */
  function EndOfText(s: string): (n: nat)
    ensures n <= |s|
    ensures forall i :: n <= i < |s| ==> IsSpace(s[i])
    ensures n > 0 ==> !IsSpace(s[n - 1])
  {
    if s == [] || !IsSpace(s[|s| - 1]) then |s| else EndOfText(s[..|s| - 1])
  }

  /** ASCII `trim`: `s` without leading and trailing whitespace. */
  function Trim(s: string): (r: string)
    ensures |r| <= |s|
    ensures r != [] ==> !IsSpace(r[0]) && !IsSpace(r[|r| - 1])
    ensures r == [] <==> forall i :: 0 <= i < |s| ==> IsSpace(s[i])
    ensures LeadingSpaces(s) + |r| <= |s| && r == s[LeadingSpaces(s)..LeadingSpaces(s) + |r|]
  {
    var t := s[LeadingSpaces(s)..];
    var r := t[..EndOfText(t)];
    assert r == s[LeadingSpaces(s)..LeadingSpaces(s) + |r|];
    r
  }

  function DigitChar(d: nat): (c: char)
    requires d < 10
    ensures IsDigit(c)
  {
    ('0' as int + d) as char
  }

  function DigitValue(c: char): (d: nat)
    requires IsDigit(c)
    ensures d < 10 && DigitChar(d) == c
  {
    c as int - '0' as int
  }

  /** The value of a string of decimal digits. */
  function ParseDigits(s: string): nat
    requires AllDigits(s)
  {
    if s == [] then 0 else ParseDigits(s[..|s| - 1]) * 10 + DigitValue(s[|s| - 1])
  }

  /** The decimal form of `n` (`n.toString()` for a natural number): digits
      only, no leading zero, and reading it back gives `n`. */
  function NatToString(n: nat): (r: string)
    ensures |r| >= 1 && AllDigits(r)
    ensures r[0] == '0' ==> n == 0
    ensures ParseDigits(r) == n
    ensures n < 10 <==> |r| == 1
    ensures 10 <= n < 100 ==> |r| == 2
  {
    if n < 10 then [DigitChar(n)]
    else
      var r := NatToString(n / 10) + [DigitChar(n % 10)];
      assert r[..|r| - 1] == NatToString(n / 10);
      r
  }

  /** `n.toString()` for an integer. */
  function IntToString(n: int): (r: string)
    ensures n >= 0 ==> r == NatToString(n)
    ensures n < 0 ==> r == "-" + NatToString(-n)
  {
    if n < 0 then "-" + NatToString(-n) else NatToString(n)
  }

  /** `s.padStart(2, '0')`. */
  function PadStart2(s: string): (r: string)
    ensures |r| == if |s| >= 2 then |s| else 2
    ensures r[|r| - |s|..] == s
    ensures forall i :: 0 <= i < |r| - |s| ==> r[i] == '0'
  {
    if |s| >= 2 then s else if |s| == 1 then "0" + s else "00"
  }

  /** The length of the longest prefix of `s` made of digits. */
  function DigitPrefix(s: string): (n: nat)
    ensures n <= |s| && AllDigits(s[..n])
    ensures n < |s| ==> !IsDigit(s[n])
  {
    if s == [] || !IsDigit(s[0]) then 0
    else
      var k := DigitPrefix(s[1..]);
      assert s[..k + 1] == [s[0]] + s[1..][..k];
      k + 1
  }

  /** `parseInt(s, 10)` on ASCII text: leading whitespace, an optional sign and
      the longest run of digits after it; `None` stands for `NaN`. */
  function ParseInt(s: string): (r: Option<int>)
    ensures r.None? <==> var t := s[LeadingSpaces(s)..];
      var body := if t != [] && (t[0] == '-' || t[0] == '+') then t[1..] else t;
      body == [] || !IsDigit(body[0])
  {
    ParseSigned(s[LeadingSpaces(s)..])
  }

  /** `parseInt` after the leading whitespace: an optional sign, then digits. */
  function ParseSigned(t: string): (r: Option<int>)
    ensures r.None? <==> var body := if t != [] && (t[0] == '-' || t[0] == '+') then t[1..] else t;
      body == [] || !IsDigit(body[0])
  {
    if t != [] && t[0] == '-' then
      var v := ParseUnsigned(t[1..]);
      if v.None? then None else Some(-v.value)
    else if t != [] && t[0] == '+' then ParseUnsigned(t[1..])
    else ParseUnsigned(t)
  }

  /** The value of the run of digits at the head of `b`; `None` when `b` does
      not start with a digit. */
  function ParseUnsigned(b: string): (r: Option<int>)
    ensures r.None? <==> b == [] || !IsDigit(b[0])
    ensures r.Some? ==> r.value >= 0
  {
    var d := DigitPrefix(b);
    if d == 0 then None else Some(ParseDigits(b[..d]))
  }

  /** `parseInt` of leading whitespace `w`, an optional sign `g`, a run of
      digits `d` and a tail `t` that does not continue the digits: the value
      of `d`, negated for a minus sign. So `parseInt(" 42px")` is 42 and
      `parseInt("-7")` is -7. */
  lemma ParseIntParts(s: string, w: string, g: string, d: string, t: string)
    requires s == w + g + d + t
    requires forall i :: 0 <= i < |w| ==> IsSpace(w[i])
    requires g == "" || g == "-" || g == "+"
    requires d != [] && AllDigits(d)
    requires t == [] || !IsDigit(t[0])
    ensures ParseInt(s) == Some(if g == "-" then -(ParseDigits(d) as int) else ParseDigits(d) as int)
  {
    var rest := g + (d + t);
    assert s == w + rest;
    assert rest != [] && !IsSpace(rest[0]) by {
      if g == "" { assert rest == d + t && rest[0] == d[0]; }
    }
    LeadingSpacesOf(w, rest);
    assert s[LeadingSpaces(s)..] == rest;
    SignedParts(g, d, t);
  }

  /** An optional sign, then digits, then a tail that does not continue them. */
  lemma SignedParts(g: string, d: string, t: string)
    requires g == "" || g == "-" || g == "+"
    requires d != [] && AllDigits(d)
    requires t == [] || !IsDigit(t[0])
    ensures ParseSigned(g + (d + t)) == Some(if g == "-" then -(ParseDigits(d) as int) else ParseDigits(d) as int)
  {
    UnsignedParts(d, t);
    if g != "" {
      assert (g + (d + t))[1..] == d + t;
    } else {
      assert g + (d + t) == d + t;
    }
  }

  /** Digits, then a tail that does not continue them. */
  lemma UnsignedParts(d: string, t: string)
    requires d != [] && AllDigits(d)
    requires t == [] || !IsDigit(t[0])
    ensures ParseUnsigned(d + t) == Some(ParseDigits(d) as int)
  {
    DigitPrefixOf(d, t);
    assert (d + t)[..|d|] == d;
  }

  /** Whitespace followed by text that does not start with whitespace. */
  lemma {:induction false} LeadingSpacesOf(w: string, rest: string)
    requires forall i :: 0 <= i < |w| ==> IsSpace(w[i])
    requires rest == [] || !IsSpace(rest[0])
    ensures LeadingSpaces(w + rest) == |w|
  {
    if w != [] {
      assert (w + rest)[1..] == w[1..] + rest;
      LeadingSpacesOf(w[1..], rest);
    }
  }

  /** Digits followed by text that does not start with a digit. */
  lemma {:induction false} DigitPrefixOf(d: string, t: string)
    requires AllDigits(d)
    requires t == [] || !IsDigit(t[0])
    ensures DigitPrefix(d + t) == |d|
  {
    if d != [] {
      assert (d + t)[1..] == d[1..] + t;
      DigitPrefixOf(d[1..], t);
    }
  }

  /** Whitespace before and text after the digits are skipped. */
  lemma ParseIntSkipsText()
    ensures ParseInt(" 42px") == Some(42)
  {
    assert ParseDigits("42") == 42 by {
      assert "42"[..1] == "4";
    }
    assert " 42px" == " " + "" + "42" + "px";
    ParseIntParts(" 42px", " ", "", "42", "px");
  }

  /** A leading zero does not change the value of a run of digits, so
      `parseInt("007")` reads 7. */
  lemma {:induction false} LeadingZeroIgnored(d: string)
    requires AllDigits(d)
    ensures AllDigits("0" + d) && ParseDigits("0" + d) == ParseDigits(d)
  {
    var z := "0" + d;
    if d == [] {
      assert z[..0] == [];
    } else {
      assert z[..|z| - 1] == "0" + d[..|d| - 1];
      assert z[|z| - 1] == d[|d| - 1];
      LeadingZeroIgnored(d[..|d| - 1]);
    }
  }

  /** A minus sign negates the value. */
  lemma ParseIntNegative()
    ensures ParseInt("-7") == Some(-7)
  {
    assert "-7" == "" + "-" + "7" + "";
    ParseIntParts("-7", "", "-", "7", "");
  }

  /** Decimal digits of a natural number are parsed back to it. */
  lemma ParseIntOfNat(n: nat)
    ensures ParseInt(NatToString(n)) == Some(n)
  {
    var s := NatToString(n);
    assert s == "" + "" + s + "";
    ParseIntParts(s, "", "", s, "");
  }



}

=== FILE: types.dfy ===
/** The catalogue records the stores keep (src/types/index.ts), and the lookups
    by song id that every store uses: two songs with the same id are the same
    track, whatever their other fields say. */
module Types {
  import Seqs
  import opened Wrappers

  /** An artwork or stream variant (`ImageQuality` / `DownloadUrl`): a quality
      tag, a URL, and an optional alternative link. */
  datatype Variant = Variant(quality: string, url: string, link: Option<string>)

  datatype Artist = Artist(id: string, name: string)

  datatype ArtistDetails = ArtistDetails(primary: seq<Artist>, featured: seq<Artist>, all: seq<Artist>)

  datatype Album = Album(id: string, name: string)

  /** The untyped `duration` field: absent/null, a number, or a string. */
  datatype DurationValue = Missing | Seconds(n: int) | Text(s: string)

  datatype Song = Song(
    id: string,
    name: string,
    duration: DurationValue,
    album: Option<Album>,
    artists: Option<ArtistDetails>,
    primaryArtists: Option<string>,
    image: seq<Variant>,
    downloadUrl: seq<Variant>)

  datatype RepeatMode = Off | One | All

  /** The ids of a list of songs, position by position. */
  function Ids(s: seq<Song>): (r: seq<string>)
    ensures |r| == |s| && forall i :: 0 <= i < |s| ==> r[i] == s[i].id
  {
    seq(|s|, i requires 0 <= i < |s| => s[i].id)
  }

  /** `list.some(s => s.id === id)`. */
  predicate HasId(s: seq<Song>, id: string)
  {
    exists j :: 0 <= j < |s| && s[j].id == id
  }

  /** `list.findIndex(s => s.id === id)`: the first position holding `id`, or -1. */
  function IndexOfId(s: seq<Song>, id: string): (r: int)
    ensures -1 <= r < |s|
    ensures r >= 0 ==> s[r].id == id && forall j :: 0 <= j < r ==> s[j].id != id
    ensures r == -1 <==> !HasId(s, id)
  {
    if s == [] then -1
    else if s[0].id == id then 0
    else
      var k := IndexOfId(s[1..], id);
      assert forall j :: 1 <= j < |s| ==> s[j] == s[1..][j - 1];
      if k == -1 then -1 else k + 1
  }

  /** No id occurs twice. */
  predicate UniqueIds(s: seq<Song>)
  {
    forall i, j :: 0 <= i < j < |s| ==> s[i].id != s[j].id
  }

  lemma IdsConcat(a: seq<Song>, b: seq<Song>)
    ensures Ids(a + b) == Ids(a) + Ids(b)
  {
  }

  /** Removing a song removes its id at the same position. */
  lemma IdsRemoveAt(s: seq<Song>, i: nat)
    requires i < |s|
    ensures Ids(Seqs.RemoveAt(s, i)) == Seqs.RemoveAt(Ids(s), i)
  {
  }

  /** Inserting a song inserts its id at the same position. */
  lemma IdsInsertAt(s: seq<Song>, start: int, x: Song)
    ensures Ids(Seqs.InsertAt(s, start, x)) == Seqs.InsertAt(Ids(s), start, x.id)
  {
  }

  /** Appending songs appends their ids, as multisets. */
  lemma IdsAppend(a: seq<Song>, b: seq<Song>)
    ensures multiset(Ids(a + b)) == multiset(Ids(a)) + multiset(Ids(b))
  {
    IdsConcat(a, b);
  }

  lemma SameAfterRemoval(u: seq<string>, i: nat, v: seq<string>, j: nat)
    requires i < |u| && j < |v| && u[i] == v[j]
    requires multiset(Seqs.RemoveAt(u, i)) == multiset(Seqs.RemoveAt(v, j))
    ensures multiset(u) == multiset(v)
  {
    Seqs.RemoveAtMultiset(u, i);
    Seqs.RemoveAtMultiset(v, j);
    var A, B := multiset(u), multiset(v);
    assert u[i] in A && v[j] in B;
    assert A == (A - multiset{u[i]}) + multiset{u[i]};
    assert B == (B - multiset{v[j]}) + multiset{v[j]};
  }

  /** Two lists that hold the same songs, in any order, hold the same ids. */
  lemma {:induction false} PermutationKeepsIds(a: seq<Song>, b: seq<Song>)
    requires multiset(a) == multiset(b)
    ensures multiset(Ids(a)) == multiset(Ids(b))
    decreases |a|
  {
    if a == [] {
      assert |multiset(b)| == 0;
    } else {
      var x := a[0];
      assert x in multiset(b);
      var k :| 0 <= k < |b| && b[k] == x;
      var a', b' := Seqs.RemoveAt(a, 0), Seqs.RemoveAt(b, k);
      Seqs.RemoveAtMultiset(a, 0);
      Seqs.RemoveAtMultiset(b, k);
      assert multiset(a') == multiset(b');
      PermutationKeepsIds(a', b');
      IdsRemoveAt(a, 0);
      IdsRemoveAt(b, k);
      SameAfterRemoval(Ids(a), 0, Ids(b), k);
    }
  }

  /** `list.filter(s => s.id !== id)`: the songs without that id, in order,
      each as often as before. */
  function WithoutId(s: seq<Song>, id: string): (r: seq<Song>)
    ensures Seqs.IsSubsequence(r, s)
    ensures !HasId(r, id)
    ensures forall x :: multiset(r)[x] == if x.id != id then multiset(s)[x] else 0
  {
    Seqs.Filter(s, (x: Song) => x.id != id)
  }

  /** Filtering out an id that is absent changes nothing. */
  lemma WithoutAbsentId(s: seq<Song>, id: string)
    requires !HasId(s, id)
    ensures WithoutId(s, id) == s
  {
    Seqs.FilterAllKept(s, (x: Song) => x.id != id);
  }

  /** Deleting songs from a list with distinct ids leaves distinct ids. */
  lemma {:induction false} UniqueIdsSubsequence(r: seq<Song>, s: seq<Song>)
    requires Seqs.IsSubsequence(r, s) && UniqueIds(s)
    ensures UniqueIds(r)
    decreases |s|
  {
    if r != [] {
      assert UniqueIds(s[1..]) by {
        forall i, j | 0 <= i < j < |s[1..]| ensures s[1..][i].id != s[1..][j].id {
          assert s[1..][i] == s[i + 1] && s[1..][j] == s[j + 1];
        }
      }
      if r[0] == s[0] {
        UniqueIdsSubsequence(r[1..], s[1..]);
        Seqs.SubsequenceElements(r[1..], s[1..]);
        forall i, j | 0 <= i < j < |r| ensures r[i].id != r[j].id {
          assert r[j] == r[1..][j - 1];
          if i == 0 {
            var k :| 0 <= k < |s[1..]| && s[1..][k] == r[j];
            assert s[k + 1] == r[j];
          } else {
            assert r[i] == r[1..][i - 1];
          }
        }
      } else {
        UniqueIdsSubsequence(r, s[1..]);
      }
    }
  }
}

=== FILE: wrappers.dfy ===
/** The optional value used wherever the source has `T | null | undefined`. */
module Wrappers {
  datatype Option<T> = None | Some(value: T)
}
